=== FILE: README.md ===
# HLS segment-and-publish step, modelled in Dafny

`hls_gui.py` is a small desktop tool. It cuts video files into HLS chunks
with ffmpeg, uploads every chunk to an image host, and rewrites the local
playlist so that each chunk line becomes the chunk's URL. It then uploads that
final playlist.

This project models the part of the tool that decides what happens to files
and URLs:

- the names `slice_video` derives from an input path (`hls_gui.py:81-83`);
- `upload_and_generate_m3u8`, which covers chunk selection, the upload loop
  with up to two attempts per chunk, the clean-up after a chunk fails, the progress
  bar values, the playlist rewrite and the final upload;
- the batch loop of `_process_thread`, together with the checks in
  `process_videos`.

## Model shape

The world outside the program is passed in as values:

- The two directories `output_slices` and `m3u8` are maps from file name to
  file text (`Step.Disk`).
- What `os.listdir` returns for `output_slices` is a parameter: the whole
  listing, not only its order. `Batch.ListsSlices` states when a listing
  is faithful: it holds every file of the directory once and nothing else.
  Lemmas that need this, such as `Batch.AbortClearsVideo`, require it.
- The upload function is an oracle, `Upload.Uploader = nat -> Outcome`. It
  gives the outcome of its `k`-th call: a URL, or an exception.
- The ffmpeg run is a function from input, segment length and directories to
  the directories afterwards, or to a failure together with the directories
  it left. A batch that stops there ends on those directories.

The modules follow the program:

- `Strings`: Python's `isspace`, `strip`, `startswith`, `endswith` and the
  `str` order.
- `Sorting`: `sorted()`.
- `Naming`: base, chunk and playlist names.
- `Chunks`: chunk selection.
- `Upload`: the attempts and the chunk loop.
- `Playlist`: `readlines`, the rewrite and `writelines`.
- `Step`: one call of `upload_and_generate_m3u8`, as a pure function.
- `Procedure`: the same step written with the program's loops, as methods
  proved equal to `Step.Step`.
- `Batch`: the loop over the input files.

## Behaviour of `hls_gui.py` the model keeps

- Chunks are uploaded one at a time, in sorted name order. Each chunk gets
  at most two attempts. The second attempt is made only when the first one
  raised, and there is no delay between them (`hls_gui.py:107-121`).
- When a chunk fails both attempts, every selected chunk and the local
  playlist are deleted, and the step returns `None` (`hls_gui.py:122-130`).
- The batch ends at the first file whose step returns `None` or raises
  (`hls_gui.py:172-183`).
- A `.ts` line whose chunk has no URL raises `KeyError`; no such line is
  left as it is (`hls_gui.py:139-142`).
- When no chunk is selected, the step still rewrites the playlist and
  uploads it (`hls_gui.py:101-156`).

## Model

| member | source | states |
|---|---|---|
| Naming.Basename | hls_gui.py:81 | the base name is the suffix of the path after its last `/` and contains no `/` |
| Naming.SplitExtRoot | hls_gui.py:81 | the root is a prefix of the name; when shorter, it stops at a dot after which the last component has no dot or `/` |
| Naming.SplitExtRootSpec | hls_gui.py:81 | the extension is removed only when the last component has a non-dot before the dot; when nothing is removed, every dot in the last component has only dots before it, so `.bashrc` stays whole |
| Naming.InputBase | hls_gui.py:81 | for `dir/name.ext` whose name is not only dots, the base is `name`, including any dots inside it |
| Naming.PaddedSpec | hls_gui.py:82 | `%0Nd` ends in the decimal digits of the number, has only zeros before them, and is exactly N long when the digits are fewer |
| Naming.ThreeDigits | hls_gui.py:82 | below 1000, `%03d` is the hundreds, tens and units digit |
| Naming.ChunkNamesSortNumerically | hls_gui.py:101 | for chunk numbers n < m < 1000, chunk n's name sorts strictly before chunk m's, so uploads follow playback order |
| Naming.ChunkNamesSortPast999 | hls_gui.py:101 | chunk 1000's name sorts strictly before chunk 999's, so the order breaks from a thousand chunks on |
| Strings.StripSpec | hls_gui.py:140-141 | `strip()` is the middle of the line between whitespace runs, and neither starts nor ends with whitespace |
| Strings.StripLineEnding | hls_gui.py:140-141 | stripping `name\n` gives back a name that has no whitespace at either end |
| Sorting.SortSpec | hls_gui.py:101 | `sorted()` returns an ascending permutation of its input |
| Sorting.SortedUnique | hls_gui.py:101 | two ascending arrangements of the same multiset are equal |
| Chunks.SelectChunksSpec | hls_gui.py:101 | the selection is ascending, and holds each name that starts with the base and ends in `.ts` exactly as often as the listing does, and nothing else |
| Chunks.ListingOrderIrrelevant | hls_gui.py:101 | listings that hold the same names in any order select the same chunks in the same order |
| Chunks.SegmenterOutputSelected | hls_gui.py:101 | every chunk name ffmpeg writes for the base is selected; the local playlist is not |
| Chunks.ExtendedBaseSelected | hls_gui.py:101 | chunks of another video whose base extends this base are selected too |
| Upload.Attempts | hls_gui.py:111-121 | one chunk gets consecutive calls, at most two, each failure but the last followed by another attempt, stopping at the first URL |
| Upload.AttemptsUnique | hls_gui.py:111-121 | any run of calls with that shape is the attempt sequence itself |
| Upload.UploadChunksSpec | hls_gui.py:106-132 | chunks go in order with consecutive calls and at most two attempts each; the loop stops at the first chunk that fails both; `urls` maps exactly the uploaded chunks to a URL one of their own attempts returned; the progress value goes 1, 2, ... per upload |
| Upload.LoopLength | hls_gui.py:107 | the loop attempts no more chunks than it is given |
| Upload.LoopAttempts | hls_gui.py:107-121 | each attempted chunk got one or two attempts, all but the last failed, and the attempts are consecutive calls from the step's first call on, chunk after chunk |
| Upload.LoopStops | hls_gui.py:122-130 | every chunk but the last attempted one got a URL; a chunk that got none had both attempts and ends the loop; without one, every chunk was attempted |
| Upload.LoopUrls | hls_gui.py:114-115 | `urls` holds exactly the uploaded chunks, each mapped to the URL of one of its own attempts |
| Upload.LoopProgress | hls_gui.py:132 | after the n-th uploaded chunk the progress value is set to n, once per uploaded chunk |
| Playlist.ReadLinesSpec | hls_gui.py:135-136 | `readlines()` gives non-empty lines that each end at their first `\n`, with only the last allowed to lack one, and that join back to the text |
| Playlist.ReadWriteRoundTrip | hls_gui.py:147-148 | lines of that shape, written with `writelines` and read back, are the same lines |
| Playlist.RewriteSpec | hls_gui.py:138-144 | the rewrite succeeds iff every `.ts` line has a URL; it then puts `url\n` in place of each such line and keeps every other line; otherwise it raises for the first `.ts` line without one |
| Playlist.RewriteDeterminedPointwise | hls_gui.py:138-144 | any line list rewritten line by line from the playlist is the rewrite's result |
| Playlist.RewriteFailsAt | hls_gui.py:140-142 | the `KeyError` names the first `.ts` line without a URL, whatever follows it |
| Playlist.FinalPlaylistReadsBack | hls_gui.py:135-148 | when no URL holds a line break, reading the final playlist back gives the rewritten lines one for one |
| Step.StepSpec | hls_gui.py:100-132 | the step selects the chunks and runs the loop over them; it aborts iff a chunk failed both attempts; an abort removes every selected chunk and the local playlist, writes nothing and uploads nothing more; otherwise no local file is removed and every chunk has a URL; the progress bar is 0, then n after the n-th uploaded chunk, then its maximum only when the step publishes |
| Step.FinishSpec | hls_gui.py:132-156 | after every chunk is uploaded the step keeps the local files and does not abort; the progress bar is 0, then n after the n-th chunk, then its maximum of chunks plus one only when the step publishes |
| Step.FinishOutcome | hls_gui.py:135-156 | the final playlist is the rewritten local playlist, written before its upload; the step publishes iff that upload returned a URL; a missing playlist or an unknown chunk raises with both directories unchanged, and a failed final upload raises after the write |
| Step.FinishEnding | hls_gui.py:135-156 | after the loop, the step publishes iff the local playlist exists, every chunk line has a URL and the next upload call returns a URL; the final playlist costs one upload call iff it was written |
| Step.StepEnding | hls_gui.py:100-156 | the step aborts iff a chunk failed both attempts, and publishes iff none did, the local playlist exists and rewrites, and the upload after the chunk attempts returns a URL; its upload calls are the chunk attempts plus one when the final playlist was written |
| Step.AbortClearsChunks | hls_gui.py:122-128 | when the listing holds exactly the files of `output_slices`, an aborted step leaves no chunk of the base and no local playlist there |
| Step.SegmentedPlaylistResolves | hls_gui.py:135-148 | when every `.ts` line of the local playlist names a selected chunk, a step that did not abort writes and uploads its final playlist |
| Procedure.RemoveAll | hls_gui.py:123-128 | the removal loop leaves exactly the files not named, and skips names already gone |
| Procedure.TryUpload | hls_gui.py:111-121 | the attempt loop makes exactly the calls `Upload.Attempts` describes |
| Procedure.RewriteLines | hls_gui.py:138-144 | the line loop returns what `Playlist.Rewrite` does, including the `KeyError` |
| Procedure.UploadAll | hls_gui.py:106-132 | the chunk loop with its early return yields the loop `Upload.UploadChunks` describes |
| Procedure.Publish | hls_gui.py:135-156 | the read, rewrite, write and final upload give the step `Step.Finish` describes |
| Procedure.CleanUp | hls_gui.py:122-130 | the clean-up gives the aborted step `Step.Step` describes |
| Procedure.UploadAndGenerate | hls_gui.py:100-156 | the whole method computes `Step.Step` on the same directories, listing and uploader |
| Batch.HandleSpec | hls_gui.py:172-175 | a file ends with the segmenter error iff ffmpeg failed for it, and then nothing is uploaded; an aborted step removed `{base}_playlist.m3u8` for the input's own base and wrote no final playlist; a published one wrote `final_{base}.m3u8` and made at least one upload call |
| Batch.HandleEnding | hls_gui.py:172-175 | a file that ffmpeg segmented runs the step on the chunks listed from what ffmpeg left: it aborts iff a chunk failed both attempts, is published iff none did, the local playlist exists and rewrites, and the final upload returns a URL; the upload calls it makes are the chunk attempts plus one for a written final playlist |
| Batch.AbortClearsVideo | hls_gui.py:122-128 | with a faithful listing, a file whose step aborted leaves no chunk of its base and no local playlist in `output_slices` |
| Batch.RunBatchSpec | hls_gui.py:170-183 | the reports follow the input order; every handled file but the last was published; the batch finishes iff every file was published, and otherwise ends at the first that was not |
| Batch.RunBatchHandles | hls_gui.py:172-176 | every report is what the handler returned for its file, run on the directories and upload call the previous file left, starting from the given ones; the batch ends on what the last handled file left |
| Batch.BatchAppend | hls_gui.py:172-178 | a batch over `a + b` is the batch over `a`, followed by the batch over `b` only when `a` finished |
| Batch.LaterInputsUntouched | hls_gui.py:172-176 | once the batch stops at a file, later files get no report, no segmenting and no uploads |
| Batch.ProcessVideos | hls_gui.py:158-168 | warns iff no file is selected, or iff the segment length is not a number; otherwise runs the batch, stopping at the first file not published; each report is what `Handle` returned for its file with that segment length, run on the directories and upload call the previous file left, starting from the given ones |

## Left out

- The Tk window, log lines, message boxes and the `update_idletasks` calls. The message shown on abort is not modelled. The progress bar is modelled only through the values assigned to it.
- ffmpeg itself (`hls_gui.py:85-96`). Its effect on the directories is a parameter, and chunk names are modelled for the `%03d` pattern only.
- The HTTP client `upload_file`. Its outcome on each call is the oracle, and the delay, timeouts and JSON parsing behind it are not modelled.
- Concurrent batches. `process_videos` starts each batch on a worker thread, while the Tk main loop keeps running. The start button (`hls_gui.py:41-42`) is never disabled, so a second click starts another `_process_thread` on the same directories. The model assumes one batch at a time and runs it directly.
- `int()` on the segment length entry. It is an `Option<int>` input, where `None` stands for the `ValueError` case.
- UTF-8 decoding and newline translation on `open()`. File contents are decoded text; reading or writing a file with invalid UTF-8 is not modelled.
- `os.path` on Windows. Path functions follow POSIX `posixpath`.
- Errors from `os.remove` other than a missing file, such as permission errors. They are swallowed the same way, and the model treats every named file as removable.
- The line after each published file (`hls_gui.py:177`) and the completion label (`hls_gui.py:179`). They are covered only through `BatchRun.finished`.
- File selection through `filedialog` (`hls_gui.py:71-78`). The selected files are an input sequence.

=== FILE: batch.dfy ===
/** The batch driver: `process_videos` and `_process_thread`
    (hls_gui.py:158-183). The input files are handled in order, each one
    segmented and then passed to the upload step; the first file whose step
    returns `None` or raises ends the batch, and the completion message is
    shown only when every file was published. */
module Batch {
  import opened Results
  import opened Naming
  import opened Chunks
  import opened Upload
  import opened Playlist
  import opened Step

  /** What `slice_video` leaves behind: the directories after ffmpeg wrote
      the chunks and the local playlist, or after it failed (`check=True`
      turns a non-zero exit into an exception). */
  datatype Segmented = Segmented(disk: Disk) | SegmentFailed(disk: Disk)

  /** The world outside the model: the ffmpeg run for an input file and a
      segment length, the order in which `os.listdir` lists `output_slices`,
      and the upload function. */
  datatype Env = Env(segment: (string, int, Disk) -> Segmented, list: Disk -> seq<string>, upload: Uploader)

  /** How one input file ended: as its step did, or with the exception
      `slice_video` raised before the step. */
  datatype Ending = Stepped(status: Status) | SegmenterFailed

  /** The file's final playlist was uploaded. */
  predicate WasPublished(e: Ending) {
    e.Stepped? && e.status.Published?
  }

  /** How the batch went for one input file. */
  datatype Report = Report(input: string, ending: Ending)

  /** The reports in input order, whether the completion message was shown,
      the directories afterwards, and the number of the next upload call. */
  datatype BatchRun = BatchRun(reports: seq<Report>, finished: bool, disk: Disk, next: nat)

  predicate AllPublished(reports: seq<Report>) {
    forall i :: 0 <= i < |reports| ==> WasPublished(reports[i].ending)
  }

  /** One report per handled input, in input order; every handled input but
      the last was published; the batch finished exactly when every input
      was handled and published, and otherwise ended at a file that was not. */
  predicate HaltsAtFirstFailure(inputs: seq<string>, r: BatchRun) {
    && |r.reports| <= |inputs|
    && (forall i :: 0 <= i < |r.reports| ==> r.reports[i].input == inputs[i])
    && (forall i :: 0 <= i < |r.reports| - 1 ==> WasPublished(r.reports[i].ending))
    && (r.finished <==> |r.reports| == |inputs| && AllPublished(r.reports))
    && (!r.finished ==> r.reports != [] && !WasPublished(r.reports[|r.reports| - 1].ending))
  }

  /** How one input file ended, the directories afterwards and the number
      of the next upload call. */
  datatype Handled = Handled(ending: Ending, disk: Disk, next: nat)

  /** What the batch does with one input file, given the directories and
      the number of the next upload call. */
  type Handler = (string, Disk, nat) -> Handled

  /** One input file: segment it, then run the step on the names
      `slice_video` derives from it (hls_gui.py:81-83, 173-174). */
  function Handle(input: string, seconds: int, env: Env, disk: Disk, k: nat): Handled {
    match env.segment(input, seconds, disk)
    case SegmentFailed(d) => Handled(SegmenterFailed, d, k)
    case Segmented(d) =>
      var base := Base(input);
      var s := Step.Step(d, env.list(d), PlaylistName(base), base, env.upload, k);
      Handled(Stepped(s.status), s.disk, k + Calls(s))
  }

  /** A file ends in `SegmenterFailed` exactly when its segmenter run
      failed, and then nothing is uploaded. Otherwise the step works on the
      names derived from the input: an aborted step removed the local
      playlist `{base}_playlist.m3u8` and wrote no final playlist, and a
      published one wrote `final_{base}.m3u8` and made at least one upload
      call. */
  lemma HandleSpec(input: string, seconds: int, env: Env, disk: Disk, k: nat)
    ensures var r := Handle(input, seconds, env, disk, k);
      && (r.ending == SegmenterFailed <==> env.segment(input, seconds, disk).SegmentFailed?)
      && (r.ending == SegmenterFailed ==> r.disk == env.segment(input, seconds, disk).disk && r.next == k)
    ensures var r := Handle(input, seconds, env, disk, k);
      r.ending.Stepped? && r.ending.status.Aborted? ==>
        && PlaylistName(Base(input)) !in r.disk.slices
        && r.disk.finals == env.segment(input, seconds, disk).disk.finals
    ensures var r := Handle(input, seconds, env, disk, k);
      WasPublished(r.ending) ==> FinalName(Base(input)) in r.disk.finals && r.next > k
  {
    match env.segment(input, seconds, disk)
    case SegmentFailed(d) =>
    case Segmented(d) =>
      var base := Base(input);
      var s := Step.Step(d, env.list(d), PlaylistName(base), base, env.upload, k);
      StepSpec(d, env.list(d), PlaylistName(base), base, env.upload, k);
      if !s.status.Aborted? {
        FinishOutcome(d, PlaylistName(base), base, env.upload, k, s.chunks, s.loop);
      }
  }

  /** Which ending a segmented file gets: the step runs on the chunks
      selected from the listing of what ffmpeg left. The file aborts exactly
      when a chunk failed both attempts, and is published exactly when no
      chunk did, the local playlist exists and rewrites, and the upload call
      after the chunk attempts returned a URL. The upload calls made are the
      chunk attempts plus one for the final playlist when it was written. */
  lemma HandleEnding(input: string, seconds: int, env: Env, disk: Disk, k: nat)
    requires env.segment(input, seconds, disk).Segmented?
    ensures var d := env.segment(input, seconds, disk).disk;
      var base := Base(input);
      var loop := UploadChunks(SelectChunks(env.list(d), base), env.upload, k, 0);
      var written := Written(d, PlaylistName(base), loop);
      var r := Handle(input, seconds, env, disk, k);
      && r.ending.Stepped?
      && (r.ending.status.Aborted? <==> Stopped(loop))
      && (WasPublished(r.ending) <==> written && env.upload(k + |Flatten(loop.tries)|).Uploaded?)
      && r.next == k + |Flatten(loop.tries)| + (if written then 1 else 0)
  {
    var d := env.segment(input, seconds, disk).disk;
    var base := Base(input);
    var s := Step.Step(d, env.list(d), PlaylistName(base), base, env.upload, k);
    assert Handle(input, seconds, env, disk, k) == Handled(Stepped(s.status), s.disk, k + Calls(s));
    StepEnding(d, env.list(d), PlaylistName(base), base, env.upload, k);
    var loop := UploadChunks(SelectChunks(env.list(d), base), env.upload, k, 0);
    var o := env.upload(k + |Flatten(loop.tries)|);
    assert s.status.Published? <==> Written(d, PlaylistName(base), loop) && o.Uploaded?;
    assert WasPublished(Stepped(s.status)) <==> s.status.Published?;
  }

  /** `os.listdir(output_dir)` lists every file of `output_slices` once and
      nothing else, in whatever order. */
  ghost predicate ListsSlices(env: Env) {
    forall d: Disk :: multiset(env.list(d)) == multiset(d.slices.Keys)
  }

  /** With a faithful listing, a file whose step aborted leaves no chunk of
      its video in `output_slices`, nor its local playlist. */
  lemma AbortClearsVideo(input: string, seconds: int, env: Env, disk: Disk, k: nat)
    requires ListsSlices(env)
    ensures var r := Handle(input, seconds, env, disk, k);
      r.ending.Stepped? && r.ending.status.Aborted? ==>
        && PlaylistName(Base(input)) !in r.disk.slices
        && forall f :: f in r.disk.slices ==> !IsChunkOf(f, Base(input))
  {
    match env.segment(input, seconds, disk)
    case SegmentFailed(d) =>
    case Segmented(d) =>
      var base := Base(input);
      var listing := env.list(d);
      assert multiset(listing) == multiset(d.slices.Keys);
      forall f
        ensures f in listing <==> f in d.slices
      {
        assert f in listing <==> f in multiset(listing);
        assert f in d.slices <==> f in multiset(d.slices.Keys);
      }
      AbortClearsChunks(d, listing, PlaylistName(base), base, env.upload, k);
  }

  /** The handler `_process_thread` applies to each input file. */
  function FileHandler(seconds: int, env: Env): Handler {
    (input: string, disk: Disk, k: nat) => Handle(input, seconds, env, disk, k)
  }

  /** The loop at hls_gui.py:172-178 over `inputs`, starting with call `k`
      of the upload function. What it does is stated by `RunBatchSpec`. */
  function RunBatch(inputs: seq<string>, handle: Handler, disk: Disk, k: nat): BatchRun {
    if inputs == [] then BatchRun([], true, disk, k)
    else
      var Handled(ending, d, next) := handle(inputs[0], disk, k);
      var report := Report(inputs[0], ending);
      if !WasPublished(ending) then BatchRun([report], false, d, next)
      else
        var rest := RunBatch(inputs[1..], handle, d, next);
        BatchRun([report] + rest.reports, rest.finished, rest.disk, rest.next)
  }

  /** The files are handled in order, the batch stops at the first file
      that was not published, and it finishes only if every file was. */
  lemma {:induction false} RunBatchSpec(inputs: seq<string>, handle: Handler, disk: Disk, k: nat)
    ensures HaltsAtFirstFailure(inputs, RunBatch(inputs, handle, disk, k))
  {
    if inputs != [] {
      var Handled(ending, d, next) := handle(inputs[0], disk, k);
      if WasPublished(ending) {
        RunBatchSpec(inputs[1..], handle, d, next);
        HaltsCons(inputs, Report(inputs[0], ending), RunBatch(inputs[1..], handle, d, next), RunBatch(inputs, handle, disk, k));
      }
    }
  }

  /** A published file in front of a batch over the remaining files. */
  lemma HaltsCons(inputs: seq<string>, report: Report, rest: BatchRun, r: BatchRun)
    requires inputs != [] && report.input == inputs[0] && WasPublished(report.ending)
    requires HaltsAtFirstFailure(inputs[1..], rest)
    requires r == BatchRun([report] + rest.reports, rest.finished, rest.disk, rest.next)
    ensures HaltsAtFirstFailure(inputs, r)
  {
    assert r.reports[0] == report;
    assert forall i :: 0 < i < |r.reports| ==> r.reports[i] == rest.reports[i - 1];
  }

  /** The batch handled its files one after another with `handle`: `ds`
      and `ks` are the directories and the next upload call before each
      handled file and after the last one, each report's ending is what
      the handler returned for that file, and the batch ends on the
      directories and upload call the last handled file left. */
  predicate Chain(inputs: seq<string>, handle: Handler, disk: Disk, k: nat, r: BatchRun, ds: seq<Disk>, ks: seq<nat>) {
    && |r.reports| <= |inputs|
    && |ds| == |r.reports| + 1 && |ks| == |r.reports| + 1
    && ds[0] == disk && ks[0] == k
    && (forall i :: 0 <= i < |r.reports| ==>
          && r.reports[i].input == inputs[i]
          && handle(inputs[i], ds[i], ks[i]) == Handled(r.reports[i].ending, ds[i + 1], ks[i + 1]))
    && r.disk == ds[|r.reports|] && r.next == ks[|r.reports|]
  }

  /** A file handled from `disk` and call `k`, in front of a chain over the
      remaining files from where it left off. */
  lemma ChainCons(inputs: seq<string>, handle: Handler, disk: Disk, k: nat, rest: BatchRun, ds: seq<Disk>, ks: seq<nat>)
    requires inputs != []
    requires Chain(inputs[1..], handle, handle(inputs[0], disk, k).disk, handle(inputs[0], disk, k).next, rest, ds, ks)
    ensures var h := handle(inputs[0], disk, k);
      Chain(inputs, handle, disk, k, BatchRun([Report(inputs[0], h.ending)] + rest.reports, rest.finished, rest.disk, rest.next),
            [disk] + ds, [k] + ks)
  {
    var h := handle(inputs[0], disk, k);
    var r := BatchRun([Report(inputs[0], h.ending)] + rest.reports, rest.finished, rest.disk, rest.next);
    var ds', ks' := [disk] + ds, [k] + ks;
    forall i | 0 <= i < |r.reports|
      ensures r.reports[i].input == inputs[i]
      ensures handle(inputs[i], ds'[i], ks'[i]) == Handled(r.reports[i].ending, ds'[i + 1], ks'[i + 1])
    {
      if i > 0 {
        assert r.reports[i] == rest.reports[i - 1];
        assert inputs[i] == inputs[1..][i - 1];
      }
    }
  }

  /** Every report is what the handler returned for its file, run on the
      directories and upload call the previous file left, starting from
      `disk` and call `k`; the batch ends on what the last handled file
      left. */
  lemma {:induction false} RunBatchHandles(inputs: seq<string>, handle: Handler, disk: Disk, k: nat)
    ensures exists ds, ks :: Chain(inputs, handle, disk, k, RunBatch(inputs, handle, disk, k), ds, ks)
  {
    var r := RunBatch(inputs, handle, disk, k);
    if inputs == [] {
      assert Chain(inputs, handle, disk, k, r, [disk], [k]);
    } else {
      var h := handle(inputs[0], disk, k);
      if !WasPublished(h.ending) {
        assert Chain(inputs, handle, disk, k, r, [disk, h.disk], [k, h.next]);
      } else {
        RunBatchHandles(inputs[1..], handle, h.disk, h.next);
        var rest := RunBatch(inputs[1..], handle, h.disk, h.next);
        var ds, ks :| Chain(inputs[1..], handle, h.disk, h.next, rest, ds, ks);
        ChainCons(inputs, handle, disk, k, rest, ds, ks);
        assert Chain(inputs, handle, disk, k, r, [disk] + ds, [k] + ks);
      }
    }
  }

  /** The batch over `a + b` is the batch over `a`, followed, when that one
      finished, by the batch over `b` from where it left off. */
  lemma {:induction false} BatchAppend(a: seq<string>, b: seq<string>, handle: Handler, disk: Disk, k: nat)
    ensures var ra := RunBatch(a, handle, disk, k);
      RunBatch(a + b, handle, disk, k)
        == if !ra.finished then ra
           else var rb := RunBatch(b, handle, ra.disk, ra.next);
             BatchRun(ra.reports + rb.reports, rb.finished, rb.disk, rb.next)
  {
    if a != [] {
      assert (a + b)[0] == a[0] && (a + b)[1..] == a[1..] + b;
      var Handled(ending, d, next) := handle(a[0], disk, k);
      if WasPublished(ending) {
        BatchAppend(a[1..], b, handle, d, next);
        var rest := RunBatch(a[1..], handle, d, next);
        if rest.finished {
          var rb := RunBatch(b, handle, rest.disk, rest.next);
          assert [Report(a[0], ending)] + (rest.reports + rb.reports) == ([Report(a[0], ending)] + rest.reports) + rb.reports;
        }
      }
    } else {
      assert a + b == b;
    }
  }

  /** A batch that stops at input `j` leaves every later input alone: it is
      not segmented, nothing of it is uploaded, and it gets no report. */
  lemma LaterInputsUntouched(inputs: seq<string>, handle: Handler, disk: Disk, k: nat, j: nat)
    requires j < |inputs| && !RunBatch(inputs[..j + 1], handle, disk, k).finished
    ensures RunBatch(inputs, handle, disk, k) == RunBatch(inputs[..j + 1], handle, disk, k)
  {
    var a, b := inputs[..j + 1], inputs[j + 1..];
    assert inputs == a + b;
    BatchAppend(a, b, handle, disk, k);
  }

  /** What pressing the button does (hls_gui.py:158-168): a warning when no
      file is selected or the segment length is not a number (`None` here,
      for the `ValueError` of `int()`), and the batch otherwise. */
  datatype Start = NoFilesWarning | BadLengthWarning | Started(run: BatchRun)

  function ProcessVideos(inputs: seq<string>, seconds: Option<int>, env: Env, disk: Disk, k: nat): (r: Start)
    ensures r.NoFilesWarning? <==> inputs == []
    ensures r.BadLengthWarning? <==> inputs != [] && seconds.None?
    ensures r.Started? ==> HaltsAtFirstFailure(inputs, r.run) && r.run.reports != []
    ensures r.Started? ==>
      r.run.reports[0] == Report(inputs[0], Handle(inputs[0], seconds.value, env, disk, k).ending)
    ensures r.Started? ==>
      exists ds, ks :: Chain(inputs, FileHandler(seconds.value, env), disk, k, r.run, ds, ks)
  {
    if inputs == [] then NoFilesWarning
    else if seconds.None? then BadLengthWarning
    else
      RunBatchSpec(inputs, FileHandler(seconds.value, env), disk, k);
      RunBatchHandles(inputs, FileHandler(seconds.value, env), disk, k);
      Started(RunBatch(inputs, FileHandler(seconds.value, env), disk, k))
  }
}

=== FILE: chunks.dfy ===
/** Chunk selection in `upload_and_generate_m3u8` (hls_gui.py:101): the
    directory entries that start with the video's base name and end in
    `.ts`, in sorted order. */
module Chunks {
  import opened Strings
  import opened Sorting
  import opened Naming

  /** `f.startswith(base) and f.endswith(".ts")`. */
  predicate IsChunkOf(name: string, base: string) {
    StartsWith(name, base) && EndsWith(name, ChunkSuffix)
  }

  /** The list comprehension: the entries of `listing` that pass the test, in listing order. */
  function Keep(listing: seq<string>, base: string): (r: seq<string>)
    ensures forall x :: multiset(r)[x] == if IsChunkOf(x, base) then multiset(listing)[x] else 0
  {
    if listing == [] then []
    else
      assert listing == [listing[0]] + listing[1..];
      (if IsChunkOf(listing[0], base) then [listing[0]] else []) + Keep(listing[1..], base)
  }

  /** `sorted([f for f in os.listdir(output_dir) if ...])`. What it selects
      is stated by `SelectChunksSpec`. */
  function SelectChunks(listing: seq<string>, base: string): seq<string> {
    Sort(Keep(listing, base))
  }

  /** The selection holds every chunk entry of the listing, as often as it
      occurs there, and nothing else, in ascending order. */
  lemma SelectChunksSpec(listing: seq<string>, base: string)
    ensures Sorted(SelectChunks(listing, base))
    ensures forall x :: multiset(SelectChunks(listing, base))[x] == if IsChunkOf(x, base) then multiset(listing)[x] else 0
    ensures forall x :: x in SelectChunks(listing, base) <==> x in listing && IsChunkOf(x, base)
  {
    SortSpec(Keep(listing, base));
    var r := SelectChunks(listing, base);
    assert forall x :: x in r <==> x in multiset(r);
    assert forall x :: x in listing <==> x in multiset(listing);
  }

  /** `os.listdir` lists in no particular order; the chunks selected, and so
      the order they are uploaded in, depend only on which names are listed. */
  lemma ListingOrderIrrelevant(listing1: seq<string>, listing2: seq<string>, base: string)
    requires multiset(listing1) == multiset(listing2)
    ensures SelectChunks(listing1, base) == SelectChunks(listing2, base)
  {
    var r1, r2 := SelectChunks(listing1, base), SelectChunks(listing2, base);
    SelectChunksSpec(listing1, base);
    SelectChunksSpec(listing2, base);
    assert multiset(r1) == multiset(r2) by {
      forall x ensures multiset(r1)[x] == multiset(r2)[x] { }
    }
    SortedUnique(r1, r2);
  }

  /** Every chunk the segmenter writes for `base` is selected; the playlist it
      writes beside them is not. */
  lemma SegmenterOutputSelected(base: string, n: nat)
    ensures IsChunkOf(ChunkName(base, n), base)
    ensures !IsChunkOf(PlaylistName(base), base)
  {
    var middle := "_" + Padded(n, 3);
    assert ChunkName(base, n) == base + middle + ChunkSuffix;
    Affixes(base, middle, ChunkSuffix);
    PlaylistNotSelected(base);
  }

  lemma PlaylistNotSelected(base: string)
    ensures !EndsWith(PlaylistName(base), ChunkSuffix)
  {
    var p := PlaylistName(base);
    assert p[|p| - 3] == '3';
  }

  /** The prefix test also selects the chunks of any other video whose base
      name extends this one: with bases `clip` and `clip2` in one output
      directory, the step for `clip` uploads, and on failure deletes,
      `clip2_000.ts` as well. */
  lemma ExtendedBaseSelected(base: string, other: string, n: nat)
    requires StartsWith(other, base)
    ensures IsChunkOf(ChunkName(other, n), base)
  {
    var c := ChunkName(other, n);
    Affixes(other, "_" + Padded(n, 3), ChunkSuffix);
    assert c[..|base|] == other[..|base|];
  }
}

=== FILE: naming.dfy ===
/** File names the step derives from an input video path (hls_gui.py,
    `slice_video` and `upload_and_generate_m3u8`): the base name, the chunk
    names the segmenter writes, the local and the final playlist names. */
module Naming {
  import opened Strings

  /** Index of the last `c` in `s`, or -1 (Python `str.rfind`). */
  function LastIndex(s: string, c: char): (r: int)
    ensures -1 <= r < |s|
    ensures r >= 0 ==> s[r] == c
    ensures forall i :: r < i < |s| ==> s[i] != c
  {
    if s == [] then -1
    else if s[|s| - 1] == c then |s| - 1
    else LastIndex(s[..|s| - 1], c)
  }

  /** `os.path.basename` (POSIX): what follows the last `/`. */
  function Basename(path: string): (r: string)
    ensures '/' !in r
    ensures EndsWith(path, r)
    ensures |r| == |path| || path[|path| - |r| - 1] == '/'
  {
    path[LastIndex(path, '/') + 1..]
  }

  /** The root half of `os.path.splitext` (POSIX): the extension starts at
      the last dot of the last path component, unless only dots precede it
      in that component (so `.bashrc` has no extension). */
  function SplitExtRoot(path: string): (r: string)
    ensures StartsWith(path, r)
    ensures |r| < |path| ==> path[|r|] == '.'
    ensures forall i :: |r| < i < |path| ==> path[i] != '.' && path[i] != '/'
  {
    var sep := LastIndex(path, '/');
    var dot := LastIndex(path, '.');
    if dot > sep && exists i :: sep + 1 <= i < dot && path[i] != '.' then path[..dot] else path
  }

  /** Both directions of the split: the extension is removed exactly when
      the last component has a dot with something other than dots before
      it, so a leading run of dots (`.bashrc`, `..`) is never an extension. */
  lemma SplitExtRootSpec(path: string)
    ensures var r, sep := SplitExtRoot(path), LastIndex(path, '/');
      |r| < |path| ==> sep < |r| && exists i :: sep < i < |r| && path[i] != '.'
    ensures var r, sep := SplitExtRoot(path), LastIndex(path, '/');
      |r| == |path| ==>
        forall j :: sep < j < |path| && path[j] == '.' ==> forall i :: sep < i < j ==> path[i] == '.'
  {
    var sep := LastIndex(path, '/');
    var dot := LastIndex(path, '.');
    if dot > sep && exists i :: sep + 1 <= i < dot && path[i] != '.' {
      assert |SplitExtRoot(path)| == dot;
    } else {
      forall j, i | sep < j < |path| && path[j] == '.' && sep < i < j
        ensures path[i] == '.'
      {
        assert j <= dot;
      }
    }
  }

  /** `base = os.path.splitext(os.path.basename(input_file))[0]`. */
  function Base(input: string): string {
    SplitExtRoot(Basename(input))
  }

  /** The base name of a path is what follows its last `/`. */
  lemma BasenameAfterSlash(dir: string, file: string)
    requires '/' !in file
    ensures Basename(dir + "/" + file) == file
  {
    var path := dir + "/" + file;
    assert path[|dir|] == '/';
    assert forall j :: |dir| < j < |path| ==> path[j] == file[j - |dir| - 1];
  }

  /** A file name `name.ext`, with `name` holding something other than
      dots, splits at the dot before `ext`. */
  lemma SplitExtOfName(name: string, ext: string)
    requires '/' !in name && '/' !in ext && '.' !in ext
    requires exists i :: 0 <= i < |name| && name[i] != '.'
    ensures SplitExtRoot(name + "." + ext) == name
  {
    var file := name + "." + ext;
    assert forall j :: 0 <= j < |file| ==> file[j] != '/';
    assert LastIndex(file, '/') == -1;
    assert file[|name|] == '.';
    assert forall j :: |name| < j < |file| ==> file[j] == ext[j - |name| - 1];
    assert LastIndex(file, '.') == |name|;
    var i :| 0 <= i < |name| && name[i] != '.';
    assert file[i] != '.';
    assert file[..|name|] == name;
  }

  /** An input `dir/name.ext`, with `name` holding something other than dots,
      has base `name`; dots inside `name` stay part of it. */
  lemma InputBase(dir: string, name: string, ext: string)
    requires '/' !in name && '/' !in ext && '.' !in ext
    requires exists i :: 0 <= i < |name| && name[i] != '.'
    ensures Base(dir + "/" + name + "." + ext) == name
  {
    assert dir + "/" + name + "." + ext == dir + "/" + (name + "." + ext);
    BasenameAfterSlash(dir, name + "." + ext);
    SplitExtOfName(name, ext);
  }

  /** The character of decimal digit `d`. */
  function Digit(d: nat): (c: char)
    requires d < 10
    ensures '0' <= c <= '9'
  {
    (48 + d) as char
  }

  /** `str(n)` for a natural number: its decimal digits, most significant first. */
  function Decimal(n: nat): (r: string)
    ensures r != []
    ensures forall i :: 0 <= i < |r| ==> '0' <= r[i] <= '9'
  {
    if n < 10 then [Digit(n)] else Decimal(n / 10) + [Digit(n % 10)]
  }

  /** `%0<width>d`: the decimal digits of `n`, left-padded with zeros to
      `width`. What it yields is stated by `PaddedSpec`. */
  function Padded(n: nat, width: nat): string {
    PadLeft(Decimal(n), width)
  }

  /** `s` with zeros put in front of it until it is `width` long. */
  function PadLeft(s: string, width: nat): string
    decreases width - |s|
  {
    if |s| >= width then s else PadLeft("0" + s, width)
  }

  /** Padding keeps the digits at the end, puts only zeros before them, and
      adds no more of them than `width` asks for. */
  lemma PaddedSpec(n: nat, width: nat)
    ensures var r := Padded(n, width);
      && |r| == (if |Decimal(n)| >= width then |Decimal(n)| else width)
      && EndsWith(r, Decimal(n))
      && forall i :: 0 <= i < |r| - |Decimal(n)| ==> r[i] == '0'
  {
    PadLeftSpec(Decimal(n), width);
  }

  lemma {:induction false} PadLeftSpec(s: string, width: nat)
    ensures var r := PadLeft(s, width);
      && |r| == (if |s| >= width then |s| else width)
      && r[|r| - |s|..] == s
      && forall i :: 0 <= i < |r| - |s| ==> r[i] == '0'
    decreases width - |s|
  {
    if |s| < width {
      PadLeftSpec("0" + s, width);
      var r := PadLeft(s, width);
      assert r[|r| - |s| - 1..] == "0" + s;
      assert r[|r| - |s|..] == r[|r| - |s| - 1..][1..];
    }
  }

  const ChunkSuffix: string := ".ts"

  /** The name ffmpeg gives chunk `n` for the pattern `{base}_%03d.ts`. */
  function ChunkName(base: string, n: nat): string {
    base + "_" + Padded(n, 3) + ChunkSuffix
  }

  /** `{base}_playlist.m3u8`, the segment list ffmpeg writes next to the chunks. */
  function PlaylistName(base: string): string {
    base + "_playlist.m3u8"
  }

  /** `final_{base}.m3u8`, the rewritten playlist written to the `m3u8` directory. */
  function FinalName(base: string): string {
    "final_" + base + ".m3u8"
  }

  /** Below a thousand, `%03d` gives exactly three digits. */
  lemma ThreeDigits(n: nat)
    requires n < 1000
    ensures Padded(n, 3) == [Digit(n / 100), Digit(n / 10 % 10), Digit(n % 10)]
  {
    var h, t, u := n / 100, n / 10 % 10, n % 10;
    HundredsOf(n);
    if n < 10 {
      assert Decimal(n) == [Digit(u)];
      assert "0" + [Digit(u)] == ['0', Digit(u)];
      assert "0" + ['0', Digit(u)] == ['0', '0', Digit(u)];
      assert PadLeft([Digit(u)], 3) == PadLeft(['0', Digit(u)], 3);
      assert PadLeft(['0', Digit(u)], 3) == ['0', '0', Digit(u)];
    } else if n < 100 {
      assert Decimal(n / 10) == [Digit(t)];
      assert Decimal(n) == [Digit(t), Digit(u)];
      assert "0" + [Digit(t), Digit(u)] == ['0', Digit(t), Digit(u)];
      assert PadLeft([Digit(t), Digit(u)], 3) == ['0', Digit(t), Digit(u)];
    } else {
      assert Decimal(n / 10 / 10) == [Digit(h)];
      assert Decimal(n / 10) == [Digit(h), Digit(t)];
      assert Decimal(n) == [Digit(h), Digit(t), Digit(u)];
    }
  }

  lemma HundredsOf(n: nat)
    ensures n / 10 / 10 == n / 100 && n / 10 % 10 < 10
  {
  }

  /** Digit triples of numbers below a thousand compare like the numbers. */
  lemma DigitsCompare(n: nat, m: nat)
    requires n < m < 1000
    ensures || n / 100 < m / 100
            || (n / 100 == m / 100 && n / 10 % 10 < m / 10 % 10)
            || (n / 100 == m / 100 && n / 10 % 10 == m / 10 % 10 && n % 10 < m % 10)
  {
    SplitDigits(n);
    SplitDigits(m);
  }

  /** A number below a thousand is its hundreds, tens and units digits. */
  lemma SplitDigits(n: nat)
    requires n < 1000
    ensures n / 100 < 10 && n / 10 % 10 < 10 && n % 10 < 10
    ensures n == 100 * (n / 100) + 10 * (n / 10 % 10) + n % 10
  {
  }

  /** Chunk names of one base whose digit strings first differ at `k` are
      ordered by the digits at `k`. */
  lemma ChunkNamesDifferAt(base: string, s: string, t: string, k: nat)
    requires |s| == |t| && k < |s| && s[..k] == t[..k] && s[k] < t[k]
    ensures Below(base + "_" + s + ChunkSuffix, base + "_" + t + ChunkSuffix)
    ensures !Below(base + "_" + t + ChunkSuffix, base + "_" + s + ChunkSuffix)
  {
    var x, y := base + "_" + s + ChunkSuffix, base + "_" + t + ChunkSuffix;
    var p := |base| + 1;
    assert x[..p + k] == base + "_" + s[..k];
    assert y[..p + k] == base + "_" + t[..k];
    assert x[p + k] == s[k] && y[p + k] == t[k];
    BelowAtDifference(x, y, p + k);
  }

  /** Three-digit chunk names compare like their digit triples. */
  lemma DigitTriplesCompare(base: string, a: nat, b: nat, c: nat, d: nat, e: nat, f: nat)
    requires a < 10 && b < 10 && c < 10 && d < 10 && e < 10 && f < 10
    requires a < d || (a == d && b < e) || (a == d && b == e && c < f)
    ensures Below(base + "_" + [Digit(a), Digit(b), Digit(c)] + ChunkSuffix,
                  base + "_" + [Digit(d), Digit(e), Digit(f)] + ChunkSuffix)
    ensures !Below(base + "_" + [Digit(d), Digit(e), Digit(f)] + ChunkSuffix,
                   base + "_" + [Digit(a), Digit(b), Digit(c)] + ChunkSuffix)
  {
    var s, t := [Digit(a), Digit(b), Digit(c)], [Digit(d), Digit(e), Digit(f)];
    if a < d {
      ChunkNamesDifferAt(base, s, t, 0);
    } else if b < e {
      ChunkNamesDifferAt(base, s, t, 1);
    } else {
      ChunkNamesDifferAt(base, s, t, 2);
    }
  }

  /** While a video has at most a thousand chunks, the name order `sorted()`
      uses agrees with the chunk numbering, so chunks upload in playback order. */
  lemma ChunkNamesSortNumerically(base: string, n: nat, m: nat)
    requires n < m < 1000
    ensures Below(ChunkName(base, n), ChunkName(base, m))
    ensures !Below(ChunkName(base, m), ChunkName(base, n))
  {
    ThreeDigits(n);
    ThreeDigits(m);
    DigitsCompare(n, m);
    DigitTriplesCompare(base, n / 100, n / 10 % 10, n % 10, m / 100, m / 10 % 10, m % 10);
  }

  /** From chunk 1000 on, the name order no longer follows the numbering:
      `{base}_1000.ts` sorts before `{base}_999.ts`. */
  lemma ChunkNamesSortPast999(base: string)
    ensures Below(ChunkName(base, 1000), ChunkName(base, 999))
    ensures !Below(ChunkName(base, 999), ChunkName(base, 1000))
  {
    assert Decimal(1000) == "1000" by {
      assert Decimal(1) == "1";
      assert Decimal(10) == "10";
      assert Decimal(100) == "100";
    }
    ThreeDigits(999);
    var x, y := ChunkName(base, 1000), ChunkName(base, 999);
    var p := |base| + 1;
    assert x[..p] == y[..p];
    assert x[p] == '1' && y[p] == '9';
    BelowAtDifference(x, y, p);
  }
}

=== FILE: playlist.dfy ===
/** The playlist rewrite in `upload_and_generate_m3u8` (hls_gui.py:135-148):
    the local playlist is read as lines, every line whose stripped text ends
    in `.ts` is replaced by the uploaded URL of that chunk, and the lines are
    written to the final playlist. The lines are those of an HLS playlist
    (section 4.1 of RFC 8216: URI, tag, comment or blank), but only the `.ts`
    suffix is looked at. */
module Playlist {
  import opened Strings
  import opened Results
  import opened Naming

  /** `f.writelines(lines)`: the text the lines make up. */
  function Concat(lines: seq<string>): string {
    if lines == [] then [] else lines[0] + Concat(lines[1..])
  }

  /** Length of the first line of `text`, its `\n` included when it has one. */
  function LineLength(text: string): (n: nat)
    requires text != []
    ensures 0 < n <= |text|
    ensures '\n' !in text[..n - 1]
    ensures n < |text| ==> text[n - 1] == '\n'
  {
    if text[0] == '\n' || |text| == 1 then 1
    else
      var n := 1 + LineLength(text[1..]);
      assert text[..n - 1] == [text[0]] + text[1..][..n - 2];
      n
  }

  /** The shape of what `readlines()` returns: no empty line, every line but
      the last ends in `\n`, and no line holds a `\n` anywhere else. */
  predicate LinesShaped(lines: seq<string>) {
    forall i :: 0 <= i < |lines| ==>
      && lines[i] != []
      && '\n' !in lines[i][..|lines[i]| - 1]
      && (i < |lines| - 1 ==> lines[i][|lines[i]| - 1] == '\n')
  }

  /** `f.readlines()` on the decoded text of a file: the lines of `text`,
      each with its own line ending. Its shape is stated by `ReadLinesSpec`. */
  function ReadLines(text: string): seq<string>
    decreases |text|
  {
    if text == [] then []
    else
      var n := LineLength(text);
      [text[..n]] + ReadLines(text[n..])
  }

  /** The lines have the shape `readlines()` gives them and make up the text. */
  lemma {:induction false} ReadLinesSpec(text: string)
    ensures LinesShaped(ReadLines(text))
    ensures Concat(ReadLines(text)) == text
    decreases |text|
  {
    if text != [] {
      var n := LineLength(text);
      var rest := ReadLines(text[n..]);
      ReadLinesSpec(text[n..]);
      assert text == text[..n] + text[n..];
      ShapedCons(text[..n], rest);
    }
  }

  /** A line of its own in front of shaped lines. */
  lemma ShapedCons(head: string, rest: seq<string>)
    requires head != [] && '\n' !in head[..|head| - 1]
    requires rest != [] ==> head[|head| - 1] == '\n'
    requires LinesShaped(rest)
    ensures LinesShaped([head] + rest)
    ensures Concat([head] + rest) == head + Concat(rest)
  {
    var lines := [head] + rest;
    assert lines[1..] == rest;
    assert forall i :: 0 < i < |lines| ==> lines[i] == rest[i - 1];
  }

  /** The first line length of `a + b` is `|a|` when `a` is a line of its own. */
  lemma {:induction false} LineLengthOfLine(a: string, b: string)
    requires a != [] && '\n' !in a[..|a| - 1]
    requires b != [] ==> a[|a| - 1] == '\n'
    ensures LineLength(a + b) == |a|
  {
    if |a| > 1 {
      assert a[0] == a[..|a| - 1][0];
      assert (a + b)[1..] == a[1..] + b;
      assert a[1..][..|a| - 2] == a[..|a| - 1][1..];
      LineLengthOfLine(a[1..], b);
    }
  }

  /** Reading back what `writelines` wrote gives the same lines, when they
      have the shape `readlines()` produces. Together with `ReadLines`'s own
      contract, this makes reading and writing inverse to each other. */
  lemma {:induction false} ReadWriteRoundTrip(lines: seq<string>)
    requires LinesShaped(lines)
    ensures ReadLines(Concat(lines)) == lines
  {
    if lines != [] {
      var rest := lines[1..];
      assert LinesShaped(rest) by {
        forall i | 0 <= i < |rest| ensures rest[i] == lines[i + 1] { }
      }
      ReadWriteRoundTrip(rest);
      assert Concat(rest) != [] ==> rest != [];
      assert Concat(rest) != [] ==> lines[0][|lines[0]| - 1] == '\n';
      LineLengthOfLine(lines[0], Concat(rest));
      assert (lines[0] + Concat(rest))[|lines[0]|..] == Concat(rest);
      assert (lines[0] + Concat(rest))[..|lines[0]|] == lines[0];
      assert lines == [lines[0]] + rest;
    }
  }

  /** `line.strip().endswith(".ts")`: the line names a chunk. */
  predicate IsChunkLine(line: string) {
    EndsWith(Strip(line), ChunkSuffix)
  }

  /** Every chunk line of `lines` names a chunk that has a URL. */
  predicate Resolvable(lines: seq<string>, urls: map<string, string>) {
    forall i :: 0 <= i < |lines| && IsChunkLine(lines[i]) ==> Strip(lines[i]) in urls
  }

  /** Line `i` is the first chunk line whose chunk has no URL. */
  predicate FirstUnresolved(lines: seq<string>, urls: map<string, string>, i: int) {
    && 0 <= i < |lines|
    && IsChunkLine(lines[i]) && Strip(lines[i]) !in urls
    && Resolvable(lines[..i], urls)
  }

  /** With a resolvable first line, the first unresolved line of the rest
      is the first unresolved line of the whole. */
  lemma UnresolvedAfterHead(lines: seq<string>, urls: map<string, string>, j: int)
    requires lines != [] && (IsChunkLine(lines[0]) ==> Strip(lines[0]) in urls)
    requires FirstUnresolved(lines[1..], urls, j)
    ensures FirstUnresolved(lines, urls, j + 1) && lines[j + 1] == lines[1..][j]
  {
    assert lines[..j + 1][1..] == lines[1..][..j];
  }

  /** With a resolvable first line, the whole is resolvable when the rest is. */
  lemma ResolvableAfterHead(lines: seq<string>, urls: map<string, string>)
    requires lines != [] && (IsChunkLine(lines[0]) ==> Strip(lines[0]) in urls)
    ensures Resolvable(lines, urls) <==> Resolvable(lines[1..], urls)
  {
    assert forall i :: 0 < i < |lines| ==> lines[i] == lines[1..][i - 1];
  }

  /** `out` is what line `line` becomes: the URL of its chunk and one `\n`
      when it is a chunk line, the line itself, line ending included, otherwise. */
  predicate LineRewritten(line: string, urls: map<string, string>, out: string) {
    if IsChunkLine(line) then Strip(line) in urls && out == urls[Strip(line)] + "\n"
    else out == line
  }

  /** `out` has one line for each line of `lines`, in the same order, each
      rewritten from the line at its own position. */
  predicate RewrittenFrom(lines: seq<string>, urls: map<string, string>, out: seq<string>) {
    |out| == |lines| && forall i :: 0 <= i < |lines| ==> LineRewritten(lines[i], urls, out[i])
  }

  lemma RewrittenCons(lines: seq<string>, urls: map<string, string>, head: string, rest: seq<string>)
    requires lines != [] && LineRewritten(lines[0], urls, head)
    requires RewrittenFrom(lines[1..], urls, rest)
    ensures RewrittenFrom(lines, urls, [head] + rest)
  {
    assert forall i :: 0 < i < |lines| ==> lines[i] == lines[1..][i - 1];
  }

  /** Rewritten lines say which lines were resolvable. */
  lemma RewrittenResolvable(lines: seq<string>, urls: map<string, string>, out: seq<string>)
    requires RewrittenFrom(lines, urls, out)
    ensures Resolvable(lines, urls)
  {
    assert forall i :: 0 <= i < |lines| ==> LineRewritten(lines[i], urls, out[i]);
  }

  /** One more line rewritten, at the end. */
  lemma RewrittenSnoc(lines: seq<string>, urls: map<string, string>, j: int, out: seq<string>, x: string)
    requires 0 <= j < |lines| && RewrittenFrom(lines[..j], urls, out)
    requires LineRewritten(lines[j], urls, x)
    ensures RewrittenFrom(lines[..j + 1], urls, out + [x])
  {
    assert forall i :: 0 <= i < j ==> lines[..j + 1][i] == lines[..j][i];
  }

  /** The loop at hls_gui.py:138-144. A chunk line becomes `urls[name] + "\n"`;
      any other line is kept as it is. A chunk without a URL raises `KeyError`,
      modelled as `Failure` with the name of the first such chunk. */
  function Rewrite(lines: seq<string>, urls: map<string, string>): Result<seq<string>, string> {
    if lines == [] then Success([])
    else
      var line := lines[0];
      var name := Strip(line);
      if EndsWith(name, ChunkSuffix) && name !in urls then Failure(name)
      else
        var head := if EndsWith(name, ChunkSuffix) then urls[name] + "\n" else line;
        match Rewrite(lines[1..], urls)
        case Failure(missing) => Failure(missing)
        case Success(rest) => Success([head] + rest)
  }

  /** The rewrite succeeds exactly when every chunk line has a URL, and then
      rewrites every line at its own position; otherwise it fails with the
      chunk of the first chunk line that has none. */
  lemma {:induction false} RewriteSpec(lines: seq<string>, urls: map<string, string>)
    ensures Rewrite(lines, urls).Success? <==> Resolvable(lines, urls)
    ensures Rewrite(lines, urls).Success? ==> RewrittenFrom(lines, urls, Rewrite(lines, urls).value)
    ensures Rewrite(lines, urls).Failure? ==>
      exists i :: FirstUnresolved(lines, urls, i) && Rewrite(lines, urls).error == Strip(lines[i])
  {
    if lines != [] {
      var name := Strip(lines[0]);
      if EndsWith(name, ChunkSuffix) && name !in urls {
        assert FirstUnresolved(lines, urls, 0);
      } else {
        var head := if EndsWith(name, ChunkSuffix) then urls[name] + "\n" else lines[0];
        RewriteSpec(lines[1..], urls);
        ResolvableAfterHead(lines, urls);
        match Rewrite(lines[1..], urls)
        case Failure(missing) =>
          var j :| FirstUnresolved(lines[1..], urls, j) && missing == Strip(lines[1..][j]);
          UnresolvedAfterHead(lines, urls, j);
        case Success(rest) =>
          RewrittenCons(lines, urls, head, rest);
      }
    }
  }

  /** The pointwise description decides the rewrite: lines that are each
      rewritten from the line at their own position are what `Rewrite` returns. */
  lemma RewriteDeterminedPointwise(lines: seq<string>, urls: map<string, string>, out: seq<string>)
    requires RewrittenFrom(lines, urls, out)
    ensures Rewrite(lines, urls) == Success(out)
  {
    RewrittenResolvable(lines, urls, out);
    RewriteSpec(lines, urls);
    var v := Rewrite(lines, urls).value;
    forall i | 0 <= i < |lines|
      ensures v[i] == out[i]
    {
      assert LineRewritten(lines[i], urls, v[i]) && LineRewritten(lines[i], urls, out[i]);
    }
    assert v == out;
  }

  lemma ResolvablePrefix(lines: seq<string>, urls: map<string, string>, n: int)
    requires 0 <= n <= |lines| && Resolvable(lines[..n], urls)
    ensures forall k :: 0 <= k < n && IsChunkLine(lines[k]) ==> Strip(lines[k]) in urls
  {
    assert forall k :: 0 <= k < n ==> lines[..n][k] == lines[k];
  }

  /** The rewrite raises `KeyError` for the first chunk line without a URL,
      whatever follows it. */
  lemma RewriteFailsAt(lines: seq<string>, urls: map<string, string>, i: int)
    requires FirstUnresolved(lines, urls, i)
    ensures Rewrite(lines, urls) == Failure(Strip(lines[i]))
  {
    assert !Resolvable(lines, urls);
    RewriteSpec(lines, urls);
    var r := Rewrite(lines, urls);
    var j :| FirstUnresolved(lines, urls, j) && r.error == Strip(lines[j]);
    ResolvablePrefix(lines, urls, i);
    ResolvablePrefix(lines, urls, j);
  }

  /** The final playlist, read back, has the lines the rewrite produced, so
      its line `i` stands for line `i` of the local playlist; this needs the
      URLs to hold no line break. */
  lemma FinalPlaylistReadsBack(text: string, urls: map<string, string>)
    requires Rewrite(ReadLines(text), urls).Success?
    requires forall name :: name in urls ==> '\n' !in urls[name]
    ensures ReadLines(Concat(Rewrite(ReadLines(text), urls).value)) == Rewrite(ReadLines(text), urls).value
  {
    var lines := ReadLines(text);
    var out := Rewrite(lines, urls).value;
    ReadLinesSpec(text);
    RewriteSpec(lines, urls);
    forall i | 0 <= i < |out|
      ensures out[i] != [] && '\n' !in out[i][..|out[i]| - 1]
      ensures i < |out| - 1 ==> out[i][|out[i]| - 1] == '\n'
    {
      RewrittenLineShaped(lines[i], urls, out[i], i == |out| - 1);
    }
    ReadWriteRoundTrip(out);
  }

  /** A rewritten line keeps the shape of the line it came from. */
  lemma RewrittenLineShaped(line: string, urls: map<string, string>, out: string, last: bool)
    requires LineRewritten(line, urls, out)
    requires line != [] && '\n' !in line[..|line| - 1] && (!last ==> line[|line| - 1] == '\n')
    requires forall name :: name in urls ==> '\n' !in urls[name]
    ensures out != [] && '\n' !in out[..|out| - 1] && (!last ==> out[|out| - 1] == '\n')
  {
    if IsChunkLine(line) {
      var u := urls[Strip(line)];
      assert out[..|out| - 1] == u;
    }
  }
}

=== FILE: procedure.dfy ===
/** `upload_and_generate_m3u8` (hls_gui.py:100-156) written the way the
    program runs it: a loop over the chunks with an inner loop over the two
    attempts, a clean-up loop, a loop over the playlist lines and the final
    upload. The method computes exactly the step that `Step.Step` describes. */
module Procedure {
  import opened Results
  import opened Strings
  import opened Naming
  import opened Chunks
  import opened Playlist
  import opened Upload
  import opened Step

  /** Two stretches of the upload loop, one after the other. */
  function Append(a: ChunkLoop, b: ChunkLoop): ChunkLoop {
    ChunkLoop(a.tries + b.tries, a.urls + b.urls, a.progress + b.progress)
  }

  /** One more chunk moved from the rest of the loop to the part already done. */
  lemma AppendShift(done: ChunkLoop, t: seq<Outcome>, name: string, url: string, p: nat, rest: ChunkLoop)
    ensures Append(done, Append(ChunkLoop([t], map[name := url], [p]), rest))
         == Append(ChunkLoop(done.tries + [t], done.urls[name := url], done.progress + [p]), rest)
  {
    assert done.tries + ([t] + rest.tries) == (done.tries + [t]) + rest.tries;
    assert done.progress + ([p] + rest.progress) == (done.progress + [p]) + rest.progress;
    assert done.urls + (map[name := url] + rest.urls) == done.urls[name := url] + rest.urls;
  }

  /** A stretch that records no URL adds no entry to the dictionary. */
  lemma AppendNoUrls(done: ChunkLoop, tries: seq<seq<Outcome>>, progress: seq<nat>)
    ensures Append(done, ChunkLoop(tries, map[], progress)) == ChunkLoop(done.tries + tries, done.urls, done.progress + progress)
  {
    assert done.urls + map[] == done.urls;
  }

  /** The loop from chunk `i` on, when chunk `i` gets a URL: that chunk's
      attempts, URL and progress value, then the loop from chunk `i + 1`. */
  lemma LoopContinues(chunks: seq<string>, up: Uploader, call: nat, i: nat, t: seq<Outcome>)
    requires i < |chunks| && t == Attempts(up, call, MaxAttempts) && Succeeded(t)
    ensures UploadChunks(chunks[i..], up, call, i)
         == Append(ChunkLoop([t], map[chunks[i] := UrlOf(t)], [i + 1]), UploadChunks(chunks[i + 1..], up, call + |t|, i + 1))
  {
    assert chunks[i..][1..] == chunks[i + 1..];
  }

  /** Chunk `i`, after it got a URL, moves from the rest of the loop to the
      part already done; `next` is the loop from chunk `i + 1` on. */
  lemma Advance(chunks: seq<string>, up: Uploader, call: nat, i: nat, t: seq<Outcome>, done: ChunkLoop, rest: ChunkLoop)
    returns (next: ChunkLoop)
    requires i < |chunks| && t == Attempts(up, call, MaxAttempts) && Succeeded(t)
    requires rest == UploadChunks(chunks[i..], up, call, i)
    ensures next == UploadChunks(chunks[i + 1..], up, call + |t|, i + 1)
    ensures Append(done, rest) == Append(ChunkLoop(done.tries + [t], done.urls[chunks[i] := UrlOf(t)], done.progress + [i + 1]), next)
  {
    next := UploadChunks(chunks[i + 1..], up, call + |t|, i + 1);
    LoopContinues(chunks, up, call, i, t);
    AppendShift(done, t, chunks[i], UrlOf(t), i + 1, next);
  }

  /** Nothing done yet: the whole loop is still to come. */
  lemma AppendToNothing(rest: ChunkLoop)
    ensures Append(ChunkLoop([], map[], []), rest) == rest
  {
    assert map[] + rest.urls == rest.urls;
  }

  /** The loop from chunk `i` on, when chunk `i` fails every attempt. */
  lemma LoopEnds(chunks: seq<string>, up: Uploader, call: nat, i: nat, t: seq<Outcome>)
    requires i < |chunks| && t == Attempts(up, call, MaxAttempts) && !Succeeded(t)
    ensures UploadChunks(chunks[i..], up, call, i) == ChunkLoop([t], map[], [])
  {
  }

  /** Removes every file of `names` that exists (`os.remove` inside
      `try: ... except: pass`, hls_gui.py:123-128). */
  method RemoveAll(files: map<string, string>, names: seq<string>) returns (kept: map<string, string>)
    ensures kept == files - Members(names)
  {
    kept := files;
    var j := 0;
    while j < |names|
      invariant 0 <= j <= |names|
      invariant kept == files - Members(names[..j])
    {
      assert names[..j + 1] == names[..j] + [names[j]];
      if names[j] in kept {
        kept := kept - {names[j]};
      }
      j := j + 1;
    }
    assert names[..j] == names;
  }

  /** The attempts on one chunk (hls_gui.py:111-121): call the upload
      function until it returns a URL, at most `MaxAttempts` times. */
  method TryUpload(up: Uploader, call: nat) returns (t: seq<Outcome>)
    ensures t == Attempts(up, call, MaxAttempts)
  {
    t := [];
    var attempt := 0;
    while attempt < MaxAttempts
      invariant 0 <= attempt <= MaxAttempts && |t| == attempt
      invariant forall j :: 0 <= j < |t| ==> t[j] == up(call + j) && t[j].Failed?
    {
      var o := up(call + attempt);
      t := t + [o];
      if o.Uploaded? {
        break;
      }
      attempt := attempt + 1;
    }
    AttemptsUnique(up, call, MaxAttempts, t);
  }

  /** The rewrite loop (hls_gui.py:138-144), with `KeyError` as `Failure`. */
  method RewriteLines(lines: seq<string>, urls: map<string, string>) returns (r: Result<seq<string>, string>)
    ensures r == Rewrite(lines, urls)
  {
    var newLines: seq<string> := [];
    var j := 0;
    while j < |lines|
      invariant 0 <= j <= |lines|
      invariant RewrittenFrom(lines[..j], urls, newLines)
    {
      var line := lines[j];
      var x: string;
      if EndsWith(Strip(line), ChunkSuffix) {
        var fname := Strip(line);
        if fname !in urls {
          RewrittenResolvable(lines[..j], urls, newLines);
          RewriteFailsAt(lines, urls, j);
          return Failure(fname);
        }
        x := urls[fname] + "\n";
      } else {
        x := line;
      }
      RewrittenSnoc(lines, urls, j, newLines, x);
      newLines := newLines + [x];
      j := j + 1;
    }
    assert lines[..j] == lines;
    RewriteDeterminedPointwise(lines, urls, newLines);
    r := Success(newLines);
  }

  /** The chunk loop (hls_gui.py:106-132): each chunk in turn gets its
      attempts; a chunk that gets a URL records it and advances the progress
      bar, and the first chunk that gets none ends the loop. */
  method UploadAll(tsFiles: seq<string>, up: Uploader, k: nat) returns (loop: ChunkLoop)
    ensures loop == UploadChunks(tsFiles, up, k, 0)
  {
    var progress: seq<nat> := [];
    var urls: map<string, string> := map[];
    var tries: seq<seq<Outcome>> := [];
    var call: nat := k;
    ghost var rest := UploadChunks(tsFiles, up, k, 0);
    AppendToNothing(rest);
    var i: nat := 0;
    while i < |tsFiles|
      invariant i <= |tsFiles| && |tries| == i && |progress| == i
      invariant rest == UploadChunks(tsFiles[i..], up, call, i)
      invariant UploadChunks(tsFiles, up, k, 0) == Append(ChunkLoop(tries, urls, progress), rest)
    {
      var fname := tsFiles[i];
      var t := TryUpload(up, call);
      if !Succeeded(t) {
        LoopEnds(tsFiles, up, call, i, t);
        AppendNoUrls(ChunkLoop(tries, urls, progress), [t], []);
        return ChunkLoop(tries + [t], urls, progress);
      }
      rest := Advance(tsFiles, up, call, i, t, ChunkLoop(tries, urls, progress), rest);
      urls := urls[fname := UrlOf(t)];
      tries := tries + [t];
      call := call + |t|;
      progress := progress + [i + 1];
      i := i + 1;
    }
    AppendNoUrls(ChunkLoop(tries, urls, progress), [], []);
    loop := ChunkLoop(tries, urls, progress);
  }

  /** What follows the chunk loop when every chunk got a URL
      (hls_gui.py:135-156). */
  method Publish(disk: Disk, playlist: string, base: string, up: Uploader, k: nat, tsFiles: seq<string>, loop: ChunkLoop)
    returns (r: StepRun)
    requires ProgressCounted(0, loop) && Uploads(loop) == |tsFiles|
    ensures r == Finish(disk, playlist, base, up, k, tsFiles, loop)
  {
    var total := |tsFiles| + 1;
    var progress := [0] + loop.progress;
    if playlist !in disk.slices {
      return StepRun(Raised(PlaylistMissing(playlist)), disk, tsFiles, loop, None, total, progress);
    }
    var lines := ReadLines(disk.slices[playlist]);
    var rewritten := RewriteLines(lines, loop.urls);
    if rewritten.Failure? {
      return StepRun(Raised(UnknownChunk(rewritten.error)), disk, tsFiles, loop, None, total, progress);
    }
    var written := disk.(finals := disk.finals[FinalName(base) := Concat(rewritten.value)]);
    var o := up(k + |Flatten(loop.tries)|);
    if o.Failed? {
      return StepRun(Raised(PlaylistUploadFailed), written, tsFiles, loop, Some(o), total, progress);
    }
    r := StepRun(Published(o.url), written, tsFiles, loop, Some(o), total, progress + [total]);
  }

  /** After a chunk failed both attempts (hls_gui.py:122-130): remove the
      selected chunks and the local playlist, ignoring files already gone. */
  method CleanUp(disk: Disk, listing: seq<string>, playlist: string, base: string, up: Uploader, k: nat,
                 tsFiles: seq<string>, loop: ChunkLoop)
    returns (r: StepRun)
    requires tsFiles == SelectChunks(listing, base) && loop == UploadChunks(tsFiles, up, k, 0)
    requires Stopped(loop)
    ensures r == Step.Step(disk, listing, playlist, base, up, k)
  {
    StepWhenStopped(disk, listing, playlist, base, up, k);
    var kept := RemoveAll(disk.slices, tsFiles);
    kept := kept - {playlist};
    var fname := tsFiles[|loop.tries| - 1];
    r := StepRun(Aborted(fname), Disk(kept, disk.finals), tsFiles, loop, None, |tsFiles| + 1, [0] + loop.progress);
  }

  /** `upload_and_generate_m3u8(playlist_path, base)` with `os.listdir`
      returning `listing` and the step's first upload being call `k`. */
  method UploadAndGenerate(disk: Disk, listing: seq<string>, playlist: string, base: string, up: Uploader, k: nat)
    returns (r: StepRun)
    ensures r == Step.Step(disk, listing, playlist, base, up, k)
  {
    var tsFiles := SelectChunks(listing, base);
    var loop := UploadAll(tsFiles, up, k);
    UploadChunksSpec(tsFiles, up, k, 0);
    if Stopped(loop) {
      r := CleanUp(disk, listing, playlist, base, up, k, tsFiles, loop);
    } else {
      r := Publish(disk, playlist, base, up, k, tsFiles, loop);
    }
  }
}

=== FILE: results.dfy ===
/** Failure-carrying values used by the upload step: `Option` for the
    Python `None` result, `Result` for an operation that can raise. */
module Results {

  datatype Option<+T> = None | Some(value: T)

  datatype Result<+R, +E> = Success(value: R) | Failure(error: E)
}

=== FILE: sorting.dfy ===
/** Python's `sorted()` on a list of `str`: an ascending permutation under
    the code-point order `Strings.Below`. */
module Sorting {
  import opened Strings

  predicate Sorted(s: seq<string>) {
    forall i, j :: 0 <= i < j < |s| ==> Below(s[i], s[j])
  }

  /** Places `x` into the sorted sequence `s`; see `InsertSpec`. */
  function Insert(x: string, s: seq<string>): seq<string> {
    if s == [] || Below(x, s[0]) then [x] + s
    else [s[0]] + Insert(x, s[1..])
  }

  /** `sorted(s)`: the ascending permutation of `s`; see `SortSpec`. */
  function Sort(s: seq<string>): seq<string> {
    if s == [] then [] else Insert(s[0], Sort(s[1..]))
  }

  /** An element below every element of a sorted sequence can go in front. */
  lemma LeastInFront(h: string, s: seq<string>)
    requires Sorted(s) && forall j :: 0 <= j < |s| ==> Below(h, s[j])
    ensures Sorted([h] + s)
  {
    assert forall j :: 0 < j < |[h] + s| ==> ([h] + s)[j] == s[j - 1];
  }

  /** Inserting keeps the sequence sorted and adds exactly `x`. */
  lemma {:induction false} InsertSpec(x: string, s: seq<string>)
    requires Sorted(s)
    ensures Sorted(Insert(x, s))
    ensures multiset(Insert(x, s)) == multiset(s) + multiset{x}
  {
    if s == [] || Below(x, s[0]) {
      forall j | 0 <= j < |s|
        ensures Below(x, s[j])
      {
        if j > 0 { BelowTransitive(x, s[0], s[j]); }
      }
      LeastInFront(x, s);
    } else {
      BelowTotal(x, s[0]);
      assert s == [s[0]] + s[1..];
      InsertSpec(x, s[1..]);
      var rest := Insert(x, s[1..]);
      HeadBelowInserted(s, x, rest);
      LeastInFront(s[0], rest);
    }
  }

  /** The head of a sorted sequence is below everything in the sequence
      made of its tail and one element above it. */
  lemma HeadBelowInserted(s: seq<string>, x: string, rest: seq<string>)
    requires Sorted(s) && s != [] && Below(s[0], x)
    requires multiset(rest) == multiset(s[1..]) + multiset{x}
    ensures forall j :: 0 <= j < |rest| ==> Below(s[0], rest[j])
  {
    forall j | 0 <= j < |rest|
      ensures Below(s[0], rest[j])
    {
      assert rest[j] in multiset(rest);
      if rest[j] != x {
        var m :| 0 <= m < |s[1..]| && s[1..][m] == rest[j];
        assert s[m + 1] == rest[j];
      }
    }
  }

  /** Sorting yields an ascending permutation of its input. */
  lemma {:induction false} SortSpec(s: seq<string>)
    ensures Sorted(Sort(s))
    ensures multiset(Sort(s)) == multiset(s)
  {
    if s != [] {
      SortSpec(s[1..]);
      InsertSpec(s[0], Sort(s[1..]));
      assert s == [s[0]] + s[1..];
    }
  }

  /** The first element of a sorted sequence is below every element of it. */
  lemma HeadIsLeast(s: seq<string>, x: string)
    requires Sorted(s) && x in multiset(s)
    ensures Below(s[0], x)
  {
    var i :| 0 <= i < |s| && s[i] == x;
    if i == 0 { BelowTotal(x, x); }
  }

  /** Two sorted arrangements of one non-empty multiset start alike and
      continue with arrangements of the same remainder. */
  lemma HeadsAgree(a: seq<string>, b: seq<string>)
    requires Sorted(a) && Sorted(b) && multiset(a) == multiset(b) && a != []
    ensures b != [] && a[0] == b[0]
    ensures multiset(a[1..]) == multiset(b[1..])
  {
    assert a[0] in multiset(a);
    assert |b| == |multiset(b)| > 0;
    assert b[0] in multiset(b);
    HeadIsLeast(b, a[0]);
    HeadIsLeast(a, b[0]);
    BelowAntisymmetric(a[0], b[0]);
    TailMultiset(a);
    TailMultiset(b);
  }

  lemma TailMultiset(a: seq<string>)
    requires a != []
    ensures multiset(a[1..]) == multiset(a) - multiset{a[0]}
  {
    assert a == [a[0]] + a[1..];
  }

  /** A multiset has exactly one ascending arrangement, so the result of
      `sorted()` depends only on which names occur, not on their order. */
  lemma {:induction false} SortedUnique(a: seq<string>, b: seq<string>)
    requires Sorted(a) && Sorted(b) && multiset(a) == multiset(b)
    ensures a == b
  {
    if a == [] {
      assert |b| == |multiset(b)| == 0;
    } else {
      HeadsAgree(a, b);
      SortedUnique(a[1..], b[1..]);
      assert a == [a[0]] + a[1..] && b == [b[0]] + b[1..];
    }
  }
}

=== FILE: step.dfy ===
/** One video's upload step, `upload_and_generate_m3u8` (hls_gui.py:100-156):
    select the chunks, upload them, and either clean up after a chunk that
    failed both attempts or rewrite the playlist, write it to the `m3u8`
    directory and upload it. */
module Step {
  import opened Results
  import opened Strings
  import opened Naming
  import opened Chunks
  import opened Playlist
  import opened Upload

  /** The two directories the step works in, as file name to decoded text:
      `output_slices` (chunks and local playlists) and `m3u8` (final playlists). */
  datatype Disk = Disk(slices: map<string, string>, finals: map<string, string>)

  /** The exceptions that end a step. */
  datatype Error =
    | PlaylistMissing(name: string)  // opening the local playlist raised
    | UnknownChunk(name: string)     // `urls[fname]` raised `KeyError`
    | PlaylistUploadFailed           // uploading the final playlist raised

  /** How a step ends: the URL of the uploaded final playlist, `None` after
      the chunk named here failed both attempts, or an exception. */
  datatype Status = Published(url: string) | Aborted(chunk: string) | Raised(error: Error)

  /** Everything a step does: how it ended, the directories afterwards, the
      chunks it selected, the upload loop, the final playlist upload if it
      got that far, and the progress bar's maximum and assigned values. */
  datatype StepRun = StepRun(
    status: Status,
    disk: Disk,
    chunks: seq<string>,
    loop: ChunkLoop,
    final: Option<Outcome>,
    maximum: nat,
    progress: seq<nat>)

  /** Number of calls the step made to the upload function. */
  function Calls(r: StepRun): nat {
    |Flatten(r.loop.tries)| + (if r.final.Some? then 1 else 0)
  }

  predicate NonDecreasing(s: seq<nat>) {
    forall i, j :: 0 <= i <= j < |s| ==> s[i] <= s[j]
  }

  /** The progress bar: the maximum is the chunk count plus one; the value
      starts at 0 and is set to n after the n-th uploaded chunk, then once
      more, to the maximum, only when the final playlist is uploaded; so it
      never decreases, never passes the maximum, and reaches it only then. */
  predicate ProgressBar(r: StepRun) {
    && r.maximum == |r.chunks| + 1
    && |r.progress| == Uploads(r.loop) + (if r.status.Published? then 2 else 1)
    && (forall p :: 0 <= p <= Uploads(r.loop) ==> r.progress[p] == p)
    && r.progress[0] == 0
    && NonDecreasing(r.progress)
    && (forall i :: 0 <= i < |r.progress| ==> r.progress[i] <= r.maximum)
    && (r.progress[|r.progress| - 1] == r.maximum <==> r.status.Published?)
  }

  /** The bar of a step whose values are 0, then those the upload loop
      recorded, then the maximum when the step was published. */
  lemma ProgressBarOf(r: StepRun)
    requires ProgressCounted(0, r.loop) && r.maximum == |r.chunks| + 1 && Uploads(r.loop) < r.maximum
    requires r.status.Published? ==> Uploads(r.loop) == |r.chunks|
    requires r.progress == [0] + r.loop.progress + (if r.status.Published? then [r.maximum] else [])
    ensures ProgressBar(r)
  {
  }

  /** The step for the video with base name `base`, whose local playlist is
      `playlist` in `output_slices`, when `os.listdir` lists `listing` and the
      first upload call of the step is call `k`. What it does is stated by
      `StepSpec`. */
  function Step(disk: Disk, listing: seq<string>, playlist: string, base: string, up: Uploader, k: nat): StepRun {
    var chunks := SelectChunks(listing, base);
    var loop := UploadChunks(chunks, up, k, 0);
    LoopLength(chunks, up, k, 0);
    if Stopped(loop) then
      var kept := disk.slices - Members(chunks) - {playlist};
      StepRun(Aborted(chunks[|loop.tries| - 1]), Disk(kept, disk.finals), chunks, loop, None, |chunks| + 1, [0] + loop.progress)
    else
      Finish(disk, playlist, base, up, k, chunks, loop)
  }

  /** The step after every chunk was uploaded (hls_gui.py:135-156): read the
      local playlist, rewrite it, write the final playlist, upload it. What
      it does is stated by `FinishSpec` and `FinishOutcome`. */
  function Finish(disk: Disk, playlist: string, base: string, up: Uploader, k: nat, chunks: seq<string>, loop: ChunkLoop): StepRun {
    var maximum := |chunks| + 1;
    var progress := [0] + loop.progress;
    if playlist !in disk.slices then
      StepRun(Raised(PlaylistMissing(playlist)), disk, chunks, loop, None, maximum, progress)
    else
      match Rewrite(ReadLines(disk.slices[playlist]), loop.urls)
      case Failure(name) =>
        StepRun(Raised(UnknownChunk(name)), disk, chunks, loop, None, maximum, progress)
      case Success(out) =>
        var written := disk.(finals := disk.finals[FinalName(base) := Concat(out)]);
        var o := up(k + |Flatten(loop.tries)|);
        if o.Failed? then
          StepRun(Raised(PlaylistUploadFailed), written, chunks, loop, Some(o), maximum, progress)
        else
          StepRun(Published(o.url), written, chunks, loop, Some(o), maximum, progress + [maximum])
  }

  /** The step selects the chunks and runs the upload loop over them. A chunk
      that failed both attempts aborts it: every selected chunk and the local
      playlist are removed, nothing is written and nothing more is uploaded.
      Otherwise no local file is removed, every selected chunk has a URL, and
      the step goes on to `Finish`. */
  lemma StepSpec(disk: Disk, listing: seq<string>, playlist: string, base: string, up: Uploader, k: nat)
    ensures var r := Step(disk, listing, playlist, base, up, k);
      && r.chunks == SelectChunks(listing, base)
      && r.loop == UploadChunks(r.chunks, up, k, 0)
      && ProgressBar(r)
      && (r.status.Aborted? <==> Stopped(r.loop))
    ensures var r := Step(disk, listing, playlist, base, up, k);
      r.status.Aborted? ==>
        && 0 < |r.loop.tries| <= |r.chunks|
        && r.status.chunk == r.chunks[|r.loop.tries| - 1]
        && r.disk.slices == disk.slices - Members(r.chunks) - {playlist}
        && r.disk.finals == disk.finals
        && r.final.None?
    ensures var r := Step(disk, listing, playlist, base, up, k);
      !r.status.Aborted? ==>
        && r.disk.slices == disk.slices
        && r.loop.urls.Keys == Members(r.chunks)
        && ProgressCounted(0, r.loop) && Uploads(r.loop) == |r.chunks|
        && r == Finish(disk, playlist, base, up, k, r.chunks, r.loop)
  {
    var chunks := SelectChunks(listing, base);
    var loop := UploadChunks(chunks, up, k, 0);
    UploadChunksSpec(chunks, up, k, 0);
    if Stopped(loop) {
      ProgressBarOf(Step(disk, listing, playlist, base, up, k));
    } else {
      FinishSpec(disk, playlist, base, up, k, chunks, loop);
    }
  }

  /** The step that ends in the clean-up, field by field. */
  lemma StepWhenStopped(disk: Disk, listing: seq<string>, playlist: string, base: string, up: Uploader, k: nat)
    requires Stopped(UploadChunks(SelectChunks(listing, base), up, k, 0))
    ensures var chunks := SelectChunks(listing, base);
      var loop := UploadChunks(chunks, up, k, 0);
      && 0 < |loop.tries| <= |chunks|
      && Step(disk, listing, playlist, base, up, k)
           == StepRun(Aborted(chunks[|loop.tries| - 1]), Disk(disk.slices - Members(chunks) - {playlist}, disk.finals),
                      chunks, loop, None, |chunks| + 1, [0] + loop.progress)
  {
    UploadChunksSpec(SelectChunks(listing, base), up, k, 0);
  }

  /** After the upload loop the step keeps the chunks, the loop and the
      local files, does not abort, and drives the progress bar: it starts at
      0, never decreases, and reaches its maximum only when the step is
      published. */
  lemma FinishSpec(disk: Disk, playlist: string, base: string, up: Uploader, k: nat, chunks: seq<string>, loop: ChunkLoop)
    requires ProgressCounted(0, loop) && Uploads(loop) == |chunks|
    ensures var r := Finish(disk, playlist, base, up, k, chunks, loop);
      && r.chunks == chunks && r.loop == loop && r.disk.slices == disk.slices
      && ProgressBar(r)
      && !r.status.Aborted?
  {
    ProgressBarOf(Finish(disk, playlist, base, up, k, chunks, loop));
  }

  /** The final playlist is the rewritten local playlist, written before
      its upload is attempted; the step is published exactly when that
      upload returned a URL; a missing local playlist, a chunk line without
      a URL and a failed playlist upload raise, the first two leaving both
      directories as they were. */
  lemma FinishOutcome(disk: Disk, playlist: string, base: string, up: Uploader, k: nat, chunks: seq<string>, loop: ChunkLoop)
    requires ProgressCounted(0, loop) && Uploads(loop) == |chunks|
    ensures var r := Finish(disk, playlist, base, up, k, chunks, loop);
      r.final.Some? ==>
        && playlist in disk.slices
        && Rewrite(ReadLines(disk.slices[playlist]), loop.urls).Success?
        && r.disk.finals == disk.finals[FinalName(base) := Concat(Rewrite(ReadLines(disk.slices[playlist]), loop.urls).value)]
        && r.final.value == up(k + |Flatten(loop.tries)|)
    ensures var r := Finish(disk, playlist, base, up, k, chunks, loop);
      && (r.status.Published? <==> r.final.Some? && r.final.value.Uploaded?)
      && (r.status.Published? ==> r.final == Some(Uploaded(r.status.url)))
    ensures var r := Finish(disk, playlist, base, up, k, chunks, loop);
      r.status.Raised? ==> match r.status.error
        case PlaylistMissing(name) => name == playlist && playlist !in disk.slices && r.disk == disk
        case UnknownChunk(name) =>
          && playlist in disk.slices
          && Rewrite(ReadLines(disk.slices[playlist]), loop.urls) == Failure(name)
          && r.disk == disk && r.final.None?
        case PlaylistUploadFailed => r.final == Some(Failed)
  {
  }

  /** The local playlist exists and every chunk line of it has a URL. */
  predicate Resolves(disk: Disk, playlist: string, urls: map<string, string>) {
    playlist in disk.slices && Rewrite(ReadLines(disk.slices[playlist]), urls).Success?
  }

  /** After the upload loop, the step is published exactly when the local
      playlist exists and rewrites and the next upload call returns a URL;
      the final playlist costs one upload call exactly when it was written. */
  lemma FinishEnding(disk: Disk, playlist: string, base: string, up: Uploader, k: nat, chunks: seq<string>, loop: ChunkLoop)
    requires ProgressCounted(0, loop) && Uploads(loop) == |chunks|
    ensures var r := Finish(disk, playlist, base, up, k, chunks, loop);
      var written := Resolves(disk, playlist, loop.urls);
      && (r.status.Published? <==> written && up(k + |Flatten(loop.tries)|).Uploaded?)
      && Calls(r) == |Flatten(loop.tries)| + (if written then 1 else 0)
  {
  }

  /** The loop uploaded every chunk, and the local playlist exists and
      rewrites with the loop's URLs, so the final playlist gets written. */
  predicate Written(disk: Disk, playlist: string, loop: ChunkLoop) {
    !Stopped(loop) && Resolves(disk, playlist, loop.urls)
  }

  /** How a step ends, in terms of its upload loop: it aborts exactly when
      a chunk failed both attempts, and is published exactly when none did,
      the local playlist exists and rewrites, and the upload call after the
      chunk attempts returns a URL. Its upload calls are the chunk attempts
      plus one for the final playlist when that was written. */
  lemma StepEnding(disk: Disk, listing: seq<string>, playlist: string, base: string, up: Uploader, k: nat)
    ensures var loop := UploadChunks(SelectChunks(listing, base), up, k, 0);
      var r := Step(disk, listing, playlist, base, up, k);
      var written := Written(disk, playlist, loop);
      && (r.status.Aborted? <==> Stopped(loop))
      && (r.status.Published? <==> written && up(k + |Flatten(loop.tries)|).Uploaded?)
      && Calls(r) == |Flatten(loop.tries)| + (if written then 1 else 0)
  {
    var chunks := SelectChunks(listing, base);
    var loop := UploadChunks(chunks, up, k, 0);
    if Stopped(loop) {
      StepWhenStopped(disk, listing, playlist, base, up, k);
    } else {
      UploadChunksSpec(chunks, up, k, 0);
      FinishEnding(disk, playlist, base, up, k, chunks, loop);
      FinishSpec(disk, playlist, base, up, k, chunks, loop);
    }
  }

  /** When the listing holds exactly the files of `output_slices`, an
      aborted step leaves no chunk of the video there, nor its local
      playlist: the clean-up removes the video completely. */
  lemma AbortClearsChunks(disk: Disk, listing: seq<string>, playlist: string, base: string, up: Uploader, k: nat)
    requires forall f :: f in listing <==> f in disk.slices
    ensures var r := Step(disk, listing, playlist, base, up, k);
      r.status.Aborted? ==> playlist !in r.disk.slices && forall f :: f in r.disk.slices ==> !IsChunkOf(f, base)
  {
    var r := Step(disk, listing, playlist, base, up, k);
    StepSpec(disk, listing, playlist, base, up, k);
    SelectChunksSpec(listing, base);
    if r.status.Aborted? {
      forall f | f in r.disk.slices
        ensures !IsChunkOf(f, base)
      {
        assert f in disk.slices && f !in Members(r.chunks);
      }
    }
  }

  /** When the local playlist names only selected chunks, as the playlist the
      segmenter writes does, the rewrite cannot raise `KeyError`: a step that
      uploads every chunk writes its final playlist. */
  lemma SegmentedPlaylistResolves(disk: Disk, listing: seq<string>, playlist: string, base: string, up: Uploader, k: nat)
    requires playlist in disk.slices
    requires forall line :: line in ReadLines(disk.slices[playlist]) && IsChunkLine(line) ==>
      Strip(line) in SelectChunks(listing, base)
    ensures var r := Step(disk, listing, playlist, base, up, k);
      !r.status.Aborted? ==> r.final.Some? && FinalName(base) in r.disk.finals
  {
    var r := Step(disk, listing, playlist, base, up, k);
    var lines := ReadLines(disk.slices[playlist]);
    StepSpec(disk, listing, playlist, base, up, k);
    SelectChunksSpec(listing, base);
    if !r.status.Aborted? {
      FinishOutcome(disk, playlist, base, up, k, r.chunks, r.loop);
      RewriteSpec(lines, r.loop.urls);
      assert Resolvable(lines, r.loop.urls) by {
        assert forall i :: 0 <= i < |lines| ==> lines[i] in lines;
      }
    }
  }
}

=== FILE: strings.dfy ===
/** The Python string operations the upload step relies on: `str.isspace`,
    `str.startswith`, `str.endswith`, `str.strip()` and the code-point order
    that `sorted()` uses on `str`. */
module Strings {

  /** `c.isspace()` in Python 3: the characters `str.split()` and
      `str.strip()` treat as whitespace. */
  predicate IsSpace(c: char) {
    || c == ' '
    || '\t' <= c <= '\r'
    || '\U{1C}' <= c <= '\U{1F}'
    || c == '\U{85}' || c == '\U{A0}' || c == '\U{1680}'
    || '\U{2000}' <= c <= '\U{200A}'
    || c == '\U{2028}' || c == '\U{2029}' || c == '\U{202F}'
    || c == '\U{205F}' || c == '\U{3000}'
  }

  predicate StartsWith(s: string, prefix: string) {
    |prefix| <= |s| && s[..|prefix|] == prefix
  }

  predicate EndsWith(s: string, suffix: string) {
    |suffix| <= |s| && s[|s| - |suffix|..] == suffix
  }

  /** The strings that occur in `names`. */
  function Members(names: seq<string>): set<string> {
    set c | c in names
  }

  /** A string made of a head, a middle and a tail starts with the head and
      ends with the tail. */
  lemma Affixes(head: string, middle: string, tail: string)
    ensures StartsWith(head + middle + tail, head)
    ensures EndsWith(head + middle + tail, tail)
  {
    var s := head + middle + tail;
    assert s[..|head|] == head;
    assert s[|s| - |tail|..] == tail;
  }

  /** Drops the leading whitespace run of `s`. */
  function TrimStart(s: string): string {
    if s != [] && IsSpace(s[0]) then TrimStart(s[1..]) else s
  }

  /** Drops the trailing whitespace run of `s`. */
  function TrimEnd(s: string): string {
    if s != [] && IsSpace(s[|s| - 1]) then TrimEnd(s[..|s| - 1]) else s
  }

  /** `s.strip()`. Its meaning is stated by `StripSpec`, kept apart so that
      the many lines that mention `Strip` do not each carry its quantifiers. */
  function Strip(s: string): string {
    TrimEnd(TrimStart(s))
  }

  lemma {:induction false} TrimStartSpec(s: string)
    ensures |TrimStart(s)| <= |s| && TrimStart(s) == s[|s| - |TrimStart(s)|..]
    ensures forall i :: 0 <= i < |s| - |TrimStart(s)| ==> IsSpace(s[i])
    ensures TrimStart(s) == [] || !IsSpace(TrimStart(s)[0])
  {
    if s != [] && IsSpace(s[0]) {
      TrimStartSpec(s[1..]);
    }
  }

  lemma {:induction false} TrimEndSpec(s: string)
    ensures |TrimEnd(s)| <= |s| && TrimEnd(s) == s[..|TrimEnd(s)|]
    ensures forall i :: |TrimEnd(s)| <= i < |s| ==> IsSpace(s[i])
    ensures TrimEnd(s) == [] || !IsSpace(TrimEnd(s)[|TrimEnd(s)| - 1])
  {
    if s != [] && IsSpace(s[|s| - 1]) {
      TrimEndSpec(s[..|s| - 1]);
    }
  }

  /** `r` is the slice of `s` that starts at `i` and is surrounded by whitespace only. */
  predicate StrippedAt(s: string, r: string, i: int) {
    && 0 <= i && i + |r| <= |s|
    && r == s[i..i + |r|]
    && (forall j :: 0 <= j < i ==> IsSpace(s[j]))
    && (forall j :: i + |r| <= j < |s| ==> IsSpace(s[j]))
  }

  /** `s.strip()` is the middle of `s` between a leading and a trailing
      whitespace run, and starts and ends with something else. */
  lemma StripSpec(s: string)
    ensures exists i :: StrippedAt(s, Strip(s), i)
    ensures Strip(s) == [] || (!IsSpace(Strip(s)[0]) && !IsSpace(Strip(s)[|Strip(s)| - 1]))
  {
    var t := TrimStart(s);
    TrimStartSpec(s);
    TrimEndSpec(t);
    assert StrippedAt(s, Strip(s), |s| - |t|);
  }

  /** Stripping a line that is a bare name followed by its line ending gives the name back. */
  lemma StripLineEnding(name: string)
    requires name == [] || (!IsSpace(name[0]) && !IsSpace(name[|name| - 1]))
    ensures Strip(name + "\n") == name
  {
    var s := name + "\n";
    var r := Strip(s);
    StripSpec(s);
    var i :| StrippedAt(s, r, i);
    assert IsSpace(s[|s| - 1]);
    if name != [] {
      assert !IsSpace(s[0]) && !IsSpace(s[|name| - 1]);
    }
  }

  /** `a <= b` on Python strings: lexicographic by code point, a proper
      prefix coming first. */
  predicate Below(a: string, b: string) {
    a == [] || (b != [] && (a[0] < b[0] || (a[0] == b[0] && Below(a[1..], b[1..]))))
  }

  lemma {:induction false} BelowTotal(a: string, b: string)
    ensures Below(a, b) || Below(b, a)
  {
    if a != [] && b != [] && a[0] == b[0] {
      BelowTotal(a[1..], b[1..]);
    }
  }

  lemma {:induction false} BelowAntisymmetric(a: string, b: string)
    requires Below(a, b) && Below(b, a)
    ensures a == b
  {
    if a != [] && b != [] {
      BelowAntisymmetric(a[1..], b[1..]);
      assert a == [a[0]] + a[1..] && b == [b[0]] + b[1..];
    }
  }

  lemma {:induction false} BelowTransitive(a: string, b: string, c: string)
    requires Below(a, b) && Below(b, c)
    ensures Below(a, c)
  {
    if a != [] && b != [] && c != [] && a[0] == b[0] == c[0] {
      BelowTransitive(a[1..], b[1..], c[1..]);
    }
  }

  /** Strings that agree up to index `i` and differ there are ordered by that character. */
  lemma {:induction false} BelowAtDifference(a: string, b: string, i: nat)
    requires i < |a| && i < |b| && a[..i] == b[..i] && a[i] < b[i]
    ensures Below(a, b) && !Below(b, a)
  {
    if i > 0 {
      assert a[0] == a[..i][0] == b[..i][0] == b[0];
      assert a[1..][..i - 1] == a[..i][1..] == b[..i][1..] == b[1..][..i - 1];
      BelowAtDifference(a[1..], b[1..], i - 1);
    }
  }
}

=== FILE: upload.dfy ===
/** The upload loop of `upload_and_generate_m3u8` (hls_gui.py:106-132):
    chunks are uploaded one at a time in order, each with at most two
    attempts; the first chunk whose attempts all fail ends the loop. */
module Upload {
  import opened Strings

  /** What one call of the upload function does: return a URL or raise. */
  datatype Outcome = Uploaded(url: string) | Failed

  /** The upload function as the step sees it: the outcome of its `k`-th
      call. The network client behind it is not modelled. */
  type Uploader = nat -> Outcome

  /** `for attempt in range(2)`. */
  const MaxAttempts: nat := 2

  /** The outcomes of the attempts on one chunk when the first attempt is
      call `k` and `left` attempts are allowed. */
  function Attempts(up: Uploader, k: nat, left: nat): (r: seq<Outcome>)
    ensures AttemptsShaped(up, k, left, r)
    decreases left
  {
    if left == 0 then []
    else if up(k).Uploaded? then [up(k)]
    else [up(k)] + Attempts(up, k + 1, left - 1)
  }

  /** `r` is a run of attempts: consecutive calls from `k` on, at most `left`
      of them, at least one if any is allowed, stopping at the first success
      and going on to the limit otherwise. */
  predicate AttemptsShaped(up: Uploader, k: nat, left: nat, r: seq<Outcome>) {
    && |r| <= left
    && (left > 0 ==> r != [])
    && (forall j :: 0 <= j < |r| ==> r[j] == up(k + j))
    && (forall j :: 0 <= j < |r| - 1 ==> r[j].Failed?)
    && (|r| < left ==> r != [] && r[|r| - 1].Uploaded?)
  }

  /** The shape describes the attempts completely: only `Attempts` has it. */
  lemma {:induction false} AttemptsUnique(up: Uploader, k: nat, left: nat, r: seq<Outcome>)
    requires AttemptsShaped(up, k, left, r)
    ensures r == Attempts(up, k, left)
    decreases left
  {
    if left > 0 {
      assert r[0] == up(k);
      if up(k).Uploaded? {
        assert |r| == 1;
      } else {
        assert AttemptsShaped(up, k + 1, left - 1, r[1..]) by {
          assert forall j :: 0 <= j < |r| - 1 ==> r[1..][j] == r[j + 1];
        }
        AttemptsUnique(up, k + 1, left - 1, r[1..]);
        assert r == [r[0]] + r[1..];
      }
    }
  }

  /** The last attempt on a chunk returned a URL. */
  predicate Succeeded(tries: seq<Outcome>) {
    tries != [] && tries[|tries| - 1].Uploaded?
  }

  /** The URL of a chunk's successful attempt. */
  function UrlOf(tries: seq<Outcome>): string
    requires Succeeded(tries)
  {
    tries[|tries| - 1].url
  }

  /** All outcomes, chunk after chunk, in call order. */
  function Flatten(tries: seq<seq<Outcome>>): seq<Outcome> {
    if tries == [] then [] else tries[0] + Flatten(tries[1..])
  }

  /** What the loop leaves behind: `tries[j]` holds the outcomes of the
      attempts on chunk `j` (chunks that were never attempted have no entry),
      `urls` the `urls` dictionary, `progress` the values assigned to the
      progress bar, in order. */
  datatype ChunkLoop = ChunkLoop(tries: seq<seq<Outcome>>, urls: map<string, string>, progress: seq<nat>)

  /** A chunk failed both attempts, which ends the loop. */
  predicate Stopped(loop: ChunkLoop) {
    loop.tries != [] && !Succeeded(loop.tries[|loop.tries| - 1])
  }

  /** How many chunks were uploaded. */
  function Uploads(loop: ChunkLoop): nat {
    if Stopped(loop) then |loop.tries| - 1 else |loop.tries|
  }

  /** Every attempted chunk got between one and `MaxAttempts` attempts, all
      but the last of them failed, and the attempts are consecutive calls of
      the upload function from call `k` on, chunk after chunk. */
  predicate AttemptsBounded(chunks: seq<string>, up: Uploader, k: nat, r: ChunkLoop) {
    && |r.tries| <= |chunks|
    && (forall j :: 0 <= j < |r.tries| ==> 1 <= |r.tries[j]| <= MaxAttempts)
    && (forall j, a :: 0 <= j < |r.tries| && 0 <= a < |r.tries[j]| - 1 ==> r.tries[j][a].Failed?)
    && (forall t :: 0 <= t < |Flatten(r.tries)| ==> Flatten(r.tries)[t] == up(k + t))
  }

  /** Only the last attempted chunk can have failed, and then it failed every
      attempt and no later chunk was tried; otherwise every chunk was tried. */
  predicate StopsAtFirstFailure(chunks: seq<string>, r: ChunkLoop) {
    && (forall j :: 0 <= j < |r.tries| - 1 ==> Succeeded(r.tries[j]))
    && (Stopped(r) ==> |r.tries[|r.tries| - 1]| == MaxAttempts)
    && (!Stopped(r) ==> |r.tries| == |chunks|)
  }

  /** `urls` holds exactly the uploaded chunks, each with a URL that one of
      its own attempts returned. */
  predicate UrlsFromUploads(chunks: seq<string>, r: ChunkLoop)
    requires Uploads(r) <= |chunks| && Uploads(r) <= |r.tries|
    requires forall j :: 0 <= j < Uploads(r) ==> Succeeded(r.tries[j])
  {
    && r.urls.Keys == Members(chunks[..Uploads(r)])
    && (forall c :: c in r.urls ==> exists j :: 0 <= j < Uploads(r) && chunks[j] == c && r.urls[c] == UrlOf(r.tries[j]))
  }

  /** The progress value is set to `done + 1`, `done + 2`, ... after each uploaded chunk. */
  predicate ProgressCounted(done: nat, r: ChunkLoop) {
    |r.progress| == Uploads(r) && forall p :: 0 <= p < |r.progress| ==> r.progress[p] == done + p + 1
  }

  /** The loop at hls_gui.py:107-132 over `chunks`, starting with call `k`
      of the upload function, after `done` chunks were uploaded. What it
      does is stated by `UploadChunksSpec`. */
  function UploadChunks(chunks: seq<string>, up: Uploader, k: nat, done: nat): ChunkLoop
    decreases |chunks|
  {
    if chunks == [] then ChunkLoop([], map[], [])
    else
      var t := Attempts(up, k, MaxAttempts);
      if !Succeeded(t) then ChunkLoop([t], map[], [])
      else
        var rest := UploadChunks(chunks[1..], up, k + |t|, done + 1);
        ChunkLoop([t] + rest.tries, map[chunks[0] := UrlOf(t)] + rest.urls, [done + 1] + rest.progress)
  }

  /** The loop uploads the chunks in order with consecutive calls, at most
      `MaxAttempts` per chunk, stops at the first chunk that failed every
      attempt, records exactly the uploaded chunks' URLs and counts them on
      the progress bar. */
  lemma UploadChunksSpec(chunks: seq<string>, up: Uploader, k: nat, done: nat)
    ensures AttemptsBounded(chunks, up, k, UploadChunks(chunks, up, k, done))
    ensures StopsAtFirstFailure(chunks, UploadChunks(chunks, up, k, done))
    ensures UrlsFromUploads(chunks, UploadChunks(chunks, up, k, done))
    ensures ProgressCounted(done, UploadChunks(chunks, up, k, done))
  {
    LoopAttempts(chunks, up, k, done);
    LoopStops(chunks, up, k, done);
    LoopUrls(chunks, up, k, done);
    LoopProgress(chunks, up, k, done);
  }

  /** The loop attempts no more chunks than it is given. */
  lemma {:induction false} LoopLength(chunks: seq<string>, up: Uploader, k: nat, done: nat)
    ensures |UploadChunks(chunks, up, k, done).tries| <= |chunks|
    decreases |chunks|
  {
    if chunks != [] {
      var t := Attempts(up, k, MaxAttempts);
      if Succeeded(t) {
        LoopLength(chunks[1..], up, k + |t|, done + 1);
      }
    }
  }

  lemma {:induction false} LoopAttempts(chunks: seq<string>, up: Uploader, k: nat, done: nat)
    ensures AttemptsBounded(chunks, up, k, UploadChunks(chunks, up, k, done))
    decreases |chunks|
  {
    if chunks != [] {
      var t := Attempts(up, k, MaxAttempts);
      var r := UploadChunks(chunks, up, k, done);
      if !Succeeded(t) {
        FirstChunkFails(chunks, up, k, done, t);
      } else {
        var rest := UploadChunks(chunks[1..], up, k + |t|, done + 1);
        LoopAttempts(chunks[1..], up, k + |t|, done + 1);
        ConsAttempts(chunks, up, k, t, rest, r);
      }
    }
  }

  lemma {:induction false} LoopStops(chunks: seq<string>, up: Uploader, k: nat, done: nat)
    ensures StopsAtFirstFailure(chunks, UploadChunks(chunks, up, k, done))
    ensures |UploadChunks(chunks, up, k, done).tries| <= |chunks|
    decreases |chunks|
  {
    if chunks != [] {
      var t := Attempts(up, k, MaxAttempts);
      var r := UploadChunks(chunks, up, k, done);
      if !Succeeded(t) {
        FirstChunkFails(chunks, up, k, done, t);
      } else {
        LoopStops(chunks[1..], up, k + |t|, done + 1);
        ConsStops(chunks, t, UploadChunks(chunks[1..], up, k + |t|, done + 1), r);
      }
    }
  }

  lemma {:induction false} LoopUrls(chunks: seq<string>, up: Uploader, k: nat, done: nat)
    ensures StopsAtFirstFailure(chunks, UploadChunks(chunks, up, k, done))
    ensures |UploadChunks(chunks, up, k, done).tries| <= |chunks|
    ensures UrlsFromUploads(chunks, UploadChunks(chunks, up, k, done))
    decreases |chunks|
  {
    LoopStops(chunks, up, k, done);
    if chunks != [] {
      var t := Attempts(up, k, MaxAttempts);
      var r := UploadChunks(chunks, up, k, done);
      if !Succeeded(t) {
        FirstChunkFails(chunks, up, k, done, t);
      } else {
        var rest := UploadChunks(chunks[1..], up, k + |t|, done + 1);
        LoopUrls(chunks[1..], up, k + |t|, done + 1);
        ConsUrls(chunks, t, rest, r);
      }
    }
  }

  lemma {:induction false} LoopProgress(chunks: seq<string>, up: Uploader, k: nat, done: nat)
    ensures ProgressCounted(done, UploadChunks(chunks, up, k, done))
    decreases |chunks|
  {
    if chunks != [] {
      var t := Attempts(up, k, MaxAttempts);
      var r := UploadChunks(chunks, up, k, done);
      if !Succeeded(t) {
        FirstChunkFails(chunks, up, k, done, t);
      } else {
        var rest := UploadChunks(chunks[1..], up, k + |t|, done + 1);
        LoopProgress(chunks[1..], up, k + |t|, done + 1);
        ConsUploads(t, rest, r);
        ConsProgress(done, rest, r);
      }
    }
  }

  /** The loop when its first chunk fails every attempt. */
  lemma FirstChunkFails(chunks: seq<string>, up: Uploader, k: nat, done: nat, t: seq<Outcome>)
    requires chunks != [] && AttemptsShaped(up, k, MaxAttempts, t) && !Succeeded(t)
    ensures var r := ChunkLoop([t], map[], []);
      && AttemptsBounded(chunks, up, k, r) && StopsAtFirstFailure(chunks, r)
      && Uploads(r) == 0 && UrlsFromUploads(chunks, r) && ProgressCounted(done, r)
  {
    assert Flatten([t]) == t + Flatten([]);
  }

  /** A chunk uploaded in front of the rest of the loop adds one upload. */
  lemma ConsUploads(t: seq<Outcome>, rest: ChunkLoop, r: ChunkLoop)
    requires Succeeded(t) && r.tries == [t] + rest.tries
    ensures Uploads(r) == Uploads(rest) + 1
  {
    if rest.tries != [] {
      assert r.tries[|r.tries| - 1] == rest.tries[|rest.tries| - 1];
    }
  }

  lemma ConsProgress(done: nat, rest: ChunkLoop, r: ChunkLoop)
    requires ProgressCounted(done + 1, rest)
    requires Uploads(r) == Uploads(rest) + 1
    requires r.progress == [done + 1] + rest.progress
    ensures ProgressCounted(done, r)
  {
  }

  lemma ConsAttempts(chunks: seq<string>, up: Uploader, k: nat, t: seq<Outcome>, rest: ChunkLoop, r: ChunkLoop)
    requires chunks != [] && AttemptsShaped(up, k, MaxAttempts, t)
    requires AttemptsBounded(chunks[1..], up, k + |t|, rest)
    requires r.tries == [t] + rest.tries
    ensures AttemptsBounded(chunks, up, k, r)
  {
    assert r.tries[1..] == rest.tries;
    assert Flatten(r.tries) == t + Flatten(rest.tries);
    assert forall j :: 0 < j < |r.tries| ==> r.tries[j] == rest.tries[j - 1];
  }

  lemma ConsStops(chunks: seq<string>, t: seq<Outcome>, rest: ChunkLoop, r: ChunkLoop)
    requires chunks != [] && Succeeded(t)
    requires StopsAtFirstFailure(chunks[1..], rest)
    requires r.tries == [t] + rest.tries
    ensures StopsAtFirstFailure(chunks, r)
  {
    assert forall j :: 0 < j < |r.tries| ==> r.tries[j] == rest.tries[j - 1];
  }

  lemma ConsUrls(chunks: seq<string>, t: seq<Outcome>, rest: ChunkLoop, r: ChunkLoop)
    requires chunks != [] && Succeeded(t)
    requires StopsAtFirstFailure(chunks[1..], rest) && |rest.tries| <= |chunks| - 1
    requires UrlsFromUploads(chunks[1..], rest)
    requires r == ChunkLoop([t] + rest.tries, map[chunks[0] := UrlOf(t)] + rest.urls, r.progress)
    ensures Uploads(r) == Uploads(rest) + 1
    ensures UrlsFromUploads(chunks, r)
  {
    ConsUploads(t, rest, r);
    assert forall j :: 0 < j < |r.tries| ==> r.tries[j] == rest.tries[j - 1];
    var n := Uploads(r);
    assert r.urls.Keys == {chunks[0]} + rest.urls.Keys;
    var tail := chunks[1..][..n - 1];
    assert Members(chunks[..n]) == {chunks[0]} + Members(tail) by {
      assert chunks[..n] == [chunks[0]] + tail;
    }
    ConsUrlOrigins(chunks, t, rest, r);
  }

  /** Each URL of the extended loop came from an attempt of its own chunk. */
  lemma ConsUrlOrigins(chunks: seq<string>, t: seq<Outcome>, rest: ChunkLoop, r: ChunkLoop)
    requires chunks != [] && Succeeded(t)
    requires Uploads(rest) <= |chunks| - 1 && Uploads(rest) <= |rest.tries|
    requires forall j :: 0 <= j < Uploads(rest) ==> Succeeded(rest.tries[j])
    requires forall c :: c in rest.urls ==> exists j :: 0 <= j < Uploads(rest) && chunks[1..][j] == c && rest.urls[c] == UrlOf(rest.tries[j])
    requires r.tries == [t] + rest.tries && r.urls == map[chunks[0] := UrlOf(t)] + rest.urls
    ensures forall c :: c in r.urls ==> exists j :: 0 <= j < Uploads(rest) + 1 && chunks[j] == c && r.urls[c] == UrlOf(r.tries[j])
  {
    forall c | c in r.urls
      ensures exists j :: 0 <= j < Uploads(rest) + 1 && chunks[j] == c && r.urls[c] == UrlOf(r.tries[j])
    {
      if c in rest.urls {
        var j :| 0 <= j < Uploads(rest) && chunks[1..][j] == c && rest.urls[c] == UrlOf(rest.tries[j]);
        assert chunks[j + 1] == c && r.tries[j + 1] == rest.tries[j];
      } else {
        assert c == chunks[0] && r.tries[0] == t;
      }
    }
  }

}
